=== FILE: README.md ===
# Expose detection pipeline, modelled in Dafny

This project models the detection core of Expose, a PHP library that scans
request data (a nested array of strings) against a collection of
regular-expression filters, records a report for every match, adds up an
impact score, and dispatches a `FilterEvent` when the accumulated impact
reaches a threshold.

What is modelled:

- `Manager` (`manager.dfy`, `scanner.dfy`): the object state (filters, impact,
  impact limit, reports, exceptions, restrictions, threshold, cache, listener
  provider), its setters, `impactLimitReached`, `isException`, the recursive
  `runFilters`, `processFilters`, the threshold-gated `run`, and `dispatch`.
  The request data is a tree of `Entry(key, Leaf(text) | Node(entries))`.
- `FilterCollection` (`filter_collection.dfy`): the PHP array behind the
  collection, as the ordered list of its key/filter pairs plus the next append
  key and the iterator cursor; `ArrayAccess`, `Iterator`, `Countable`,
  `addFilter`, `setFilterData`, `getFilterData` and `setFilterImpact`.
- `FilterEvent` (`filter_event.dfy`): the constructor, `process`,
  `getFilters` and `getTotalImpact`.
- Path rules (`path_rules.dfy`): exception matching (literal or anchored
  regular expression) and the restriction allow-list.

The collaborators whose code is not part of this model are parameters of the
`Env` record: `Filter::execute` (does a filter match a value), the anchored
`preg_match` used by `isException` (returning matched, no match, or invalid
pattern), and `Converter::runAllConversions`.

The proofs compare the stateful scan with an independent, stateless reference
scan (`ScanSpec.SpecFrom`): a depth-first list of one report per (leaf, matching
filter) pair, skipping excepted subtrees and restricted leaves. Without a cache,
a scan appends a prefix of the reference reports: all of them, unless the impact
limit was reached first (`RunProofs.ScanFollowsSpec`). Each reference report is
sound (`ScanSpec.SpecSound`), and so is every report a scan appends, whatever
the cache holds (`RunProofs.ScanReportsSound`). The proofs also cover impact additivity across
runs, the cache, the dispatch gate, and the array-access round trips of the
collection.

In these places the model follows the code, which a reader might not expect:

- Restrictions are compared with `in_array`, i.e. as literal paths, not as patterns.
- Only top-level scalars go through the converter.
- A cache hit returns the cached filter list without adding reports or impact.
- With the default threshold 0, a run that matches nothing still dispatches an
  event (`Scenarios.CleanRunDispatches`).

The exception test `isException` (src/Expose/Manager.php:411) has a bug, listed
under "## Findings". `Scanner.Walk` and `ScanSpec.SpecFrom` call the corrected
test `PathRules.IsException`, which takes the matcher `env.regex` as a
parameter. The scan as written is the instance `env.regex := AsWritten(rx)`,
which reads a pattern that does not compile as a match
(`PathRules.AsWrittenInstance`). So every scan theorem, proved for every
matcher, holds of the code as written too. `RunProofs.BadExceptionScansNothing`
shows the consequence: one such pattern makes `run` add no report and no impact.

## Model

| member | source | states |
|---|---|---|
| FilterCollections.OffsetGet | src/Expose/FilterCollection.php:48-52 | a filter is returned exactly when the offset is set, and it is the one stored under that offset; otherwise null |
| FilterCollections.OffsetExists | src/Expose/FilterCollection.php:59-62 | `isset` on an offset agrees with `offsetGet` returning non-null |
| FilterCollectionProofs.OffsetSetThenGet | src/Expose/FilterCollection.php:54-57 | after `offsetSet(k, f)`, `offsetGet(k)` is `f` and every other offset reads as before |
| FilterCollectionProofs.OffsetUnsetEffect | src/Expose/FilterCollection.php:64-69 | unsetting an absent offset changes nothing; afterwards the offset is absent and every other offset reads as before |
| FilterCollectionProofs.OffsetSetKeepsWellFormed | src/Expose/FilterCollection.php:54-57 | `offsetSet` keeps keys distinct and the append key above every stored key |
| FilterCollectionProofs.RemoveKeepsWellFormed | src/Expose/FilterCollection.php:64-69 | `offsetUnset` keeps keys distinct and below the append key |
| FilterCollectionProofs.RemoveKeepsKeysDistinct | src/Expose/FilterCollection.php:64-69 | removing a key from pairs with distinct keys leaves pairs with distinct keys |
| FilterCollections.OffsetSet | src/Expose/FilterCollection.php:54-57 | a new key's pair goes last, after the old pairs in their order, and the append key is lifted above it; an existing key's pair is overwritten at its own position, every other pair stays where it was, and the count and append key are unchanged; the cursor is kept |
| FilterCollections.RemoveOffset | src/Expose/FilterCollection.php:64-69 | the result holds exactly the pairs whose key is not `k`, and no pair with key `k` |
| FilterCollections.OffsetUnset | src/Expose/FilterCollection.php:64-69 | afterwards the offset is unset; the count does not grow; the append key and the cursor are kept |
| FilterCollectionProofs.RemoveOffsetAppend | src/Expose/FilterCollection.php:64-69 | removing a key from a concatenation is removing it from each part, the first part's survivors first |
| FilterCollectionProofs.RemoveKeepsOrder | src/Expose/FilterCollection.php:64-69 | two kept pairs appear in the result in the order they had before |
| FilterCollections.AddFilter | src/Expose/FilterCollection.php:146-149 | one more filter, stored last under the old append key; the append key moves up by one; the cursor is kept |
| FilterCollections.SetFilterData | src/Expose/FilterCollection.php:87-96 | the count grows by the number of records; the cursor is kept |
| FilterCollections.Valid | src/Expose/FilterCollection.php:37-40 | no contract of its own: `isset` of the cursor's key; stated by `FilterCollections.Current` |
| FilterCollections.Count | src/Expose/FilterCollection.php:42-45 | no contract of its own: the number of pairs; stated by `FilterCollections.OffsetSet`, `AddFilter` and `FilterCollectionProofs.DenseIteration` |
| FilterCollections.Key | src/Expose/FilterCollection.php:27-30 | `key` is the key `current` reads and `valid` tests |
| FilterCollections.Rewind | src/Expose/FilterCollection.php:17-20 | the cursor key becomes 0, the store is kept, and `current` then reads the filter under key 0 |
| FilterCollections.Next | src/Expose/FilterCollection.php:32-35 | the store is kept and `key` moves up by one |
| FilterCollections.SetFilterImpactCall | src/Expose/FilterCollection.php:104-111 | a null id is an error, because `getFilterData(null)` returns the whole array; with an id the call is `SetFilterImpact` |
| FilterCollectionProofs.LookupRemove | src/Expose/FilterCollection.php:64-69 | removing key `k` does not change the lookup of any other key |
| FilterCollectionProofs.AddFilterAppends | src/Expose/FilterCollection.php:146-149 | `addFilter` is `offsetSet` at the next free key: one more filter, earlier pairs untouched, the new filter readable at that key |
| FilterCollectionProofs.AppendAndOverrideKeepWellFormed | src/Expose/FilterCollection.php:104-111 | `addFilter` and `setFilterImpact` keep the array well formed |
| FilterCollections.Current | src/Expose/FilterCollection.php:22-25 | `current` is non-null exactly when `valid` holds |
| FilterCollections.IterFrom | src/Expose/FilterCollection.php:17-40 | an iteration from key `i` visits the filters under keys i, i+1, ... and stops at the first unset key |
| FilterCollectionProofs.DenseIteration | src/Expose/FilterCollection.php:17-45 | when the keys are 0..n-1 in order, a rewound iteration visits all `count()` filters in insertion order |
| FilterCollectionProofs.SetFilterDataAppends | src/Expose/FilterCollection.php:87-96 | `setFilterData` appends the records in order under consecutive keys from the next free key; the cursor is untouched |
| FilterCollectionProofs.LoadedStoreIterates | src/Expose/FilterCollection.php:87-96 | records loaded into a fresh collection are counted, iterated back in record order, and form a well-formed array |
| FilterCollections.GetFilterData | src/Expose/FilterCollection.php:119-131 | without an id, the whole array; with an id, the first filter in insertion order carrying it, or null when none does |
| FilterCollections.SetFilterImpact | src/Expose/FilterCollection.php:104-111 | only the first filter with the id gets the new impact; keys, order, count and every other filter are unchanged; an unknown id changes nothing |
| FilterCollectionProofs.SetFilterImpactThenGet | src/Expose/FilterCollection.php:104-131 | after `setFilterImpact(id, v)`, `getFilterData(id)` finds the same filter, now with impact `v` |
| FilterEvents.Process | src/Expose/FilterEvent.php:45-51 | the loop adds the impacts of the remaining filters to the running total |
| FilterEvents.NewEvent | src/Expose/FilterEvent.php:15-35 | the event keeps the given filters and its total impact is the sum of their impacts (0 for none) |
| ManagerState.SetImpactLimit | src/Expose/Manager.php:226-249 | after `setImpactLimit(l)` the limit counts as reached exactly when l >= 1 and the impact is at least l; a limit below 1 is never reached; nothing else changes |
| ManagerState.SetException | src/Expose/Manager.php:326-330 | the exception list becomes the old list, in order, followed by the given paths; nothing else changes |
| ManagerState.SetRestriction | src/Expose/Manager.php:347-351 | the restriction list becomes the old list, in order, followed by the given paths; nothing else changes |
| ManagerState.SetExceptionCovers | src/Expose/Manager.php:326-340 | after `setException`, each given path is an exception and is listed, and earlier exceptions keep their order |
| ManagerState.SetRestrictionAdmits | src/Expose/Manager.php:347-361 | after `setRestriction`, leaves at the given paths pass, paths that passed still pass, and the list is the old one followed by the new paths |
| ManagerState.SetThreshold | src/Expose/Manager.php:469-477 | a non-numeric threshold is rejected with an error naming it, and nothing else is rejected; a numeric one is stored and nothing else changes |
| ManagerState.SetThresholdFromText | src/Expose/Manager.php:469-477 | the decimal text of `n` is stored as the threshold `n` |
| ManagerState.SetThresholdFromSignedText | src/Expose/Manager.php:469-477 | text made of an optional sign, leading zeros and the digits of `n` ("+7", "007", "-0") is accepted and stored as `n`, or `-n` after a minus |
| ManagerState.AcceptedThresholdShape | src/Expose/Manager.php:469-477 | every text the setter accepts is an optional sign, leading zeros and the digits of a natural number, so the row above fixes the stored value of every accepted text |
| ManagerState.NewManager | src/Expose/Manager.php:66-86 | a new manager holds the given filters, no impact and no reports; the limit is not in force, no path is an exception or restricted, the threshold is 0, and neither cache nor provider is set |
| ManagerState.SetCache | src/Expose/Manager.php:489-492 | the cache is set to the given one and nothing else changes |
| ManagerState.SetListenerProvider | src/Expose/Manager.php:510-513 | `dispatch` then reaches exactly the provider's listeners, for every event; nothing else changes |
| ManagerState.Dispatch | src/Expose/Manager.php:515-523 | the event is returned unchanged and goes to the provider's listeners in order, or to nobody without a provider |
| PathRules.ExceptionLoop | src/Expose/Manager.php:406-418 | the loop's flag ends true exactly when it started true or some exception covers the path |
| PathRules.IsException | src/Expose/Manager.php:406-418 | a path is an exception exactly when some exception equals it or, as an anchored pattern, matches it |
| PathRules.InvalidPatternCoversEverything | src/Expose/Manager.php:411 | as written, one exception whose pattern fails to compile makes every path an exception |
| PathRules.SlashExceptionExample | src/Expose/Manager.php:411 | with exception `a/b`, the source treats `POST.x` as an exception and the corrected test does not |
| PathRules.AsWrittenInstance | src/Expose/Manager.php:406-418 | the corrected test under the matcher `AsWritten(rx)` is exactly the source's test under `rx` |
| PathRules.AgreeOnValidPatterns | src/Expose/Manager.php:406-418 | on patterns that compile, the source's test and the corrected test agree |
| Scanner.RunFilters | src/Expose/Manager.php:129-188 | no contract of its own: on a cache hit the cached list and nothing else, otherwise the walk whose result is then cached; stated by `ScanProofs.RunFiltersGrows`, `ScanMatch.RunFiltersFollows`, `RunProofs.CacheRecordsResult` |
| Scanner.Walk | src/Expose/Manager.php:139-182 | no contract of its own: the `while` loop over the children, stopping at the impact limit; stated by `ScanProofs.WalkGrows` and `ScanMatch.WalkFollows` |
| Scanner.ProcessFilters | src/Expose/Manager.php:196-219 | no contract of its own: rewind, then the filter loop; stated by `ScanProofs.ProcessFiltersGrows` and `ScanMatch.ProcessFiltersFollows` |
| Scanner.FilterLoop | src/Expose/Manager.php:201-217 | no contract of its own: one report and the filter's impact per match, stopping at the limit; stated by `ScanProofs.FilterLoopGrows` and `ScanMatch.FilterLoopFollows` |
| ManagerState.LimitReached | src/Expose/Manager.php:226-239 | no contract of its own: a limit below 1 is never reached, otherwise impact >= limit; stated by `ManagerState.SetImpactLimit` and `RunProofs.LimitStopsScan` |
| PathRules.RestrictedOut | src/Expose/Manager.php:170 | no contract of its own: with a non-empty list, a leaf whose path is not listed is skipped; stated by `ManagerState.SetRestrictionAdmits` and `ScanSpec.SpecSound` |
| Scanner.ChildPath | src/Expose/Manager.php:146-150 | the child's path is the loop's path cut to the current depth, then the child's key |
| Scanner.ConvertTopLevel | src/Expose/Manager.php:100-106 | top-level scalars are replaced by their conversion; arrays are left as they are; keys and order are kept |
| Scanner.Run | src/Expose/Manager.php:108-118 | a dispatched event carries the returned matches and their summed impact |
| ScanSpec.SpecSound | src/Expose/Manager.php:139-182 | every reference report lies at a leaf of the input reached by its path, under no excepted path, passing the restrictions, with a filter of the collection that matches the leaf |
| ScanSpec.ExceptedPathYieldsNothing | src/Expose/Manager.php:152-156 | nothing is reported at or below an excepted path |
| ScanSpec.AllExceptedSpecEmpty | src/Expose/Manager.php:152-156 | when every path is an exception, the reference scan reports nothing |
| ScanProofs.FilterLoopGrows | src/Expose/Manager.php:201-217 | the filter loop only appends reports, raises the impact by their filters' impacts, appends each while below the limit, and returns their filters |
| ScanProofs.ProcessFiltersGrows | src/Expose/Manager.php:196-219 | `processFilters` returns exactly the filters of the reports it appended |
| ScanProofs.RunFiltersGrows | src/Expose/Manager.php:129-188 | a scan never changes the configuration, only appends reports, adds exactly their impacts, and only adds cache entries |
| ScanMatch.ProcessFiltersFollows | src/Expose/Manager.php:196-219 | `processFilters` appends a prefix of the leaf's reference reports, all of them unless the limit is reached |
| ScanMatch.RunFiltersFollows | src/Expose/Manager.php:139-182 | without a cache, `runFilters` at depth `lvl` appends a prefix of the reference reports of the array under the path cut to `lvl`, all of them unless the limit is reached |
| RunProofs.ScanFollowsSpec | src/Expose/Manager.php:129-219 | without a cache, a top-level scan appends a prefix of the reference reports (all unless the limit is reached), returns their filters, and raises the impact by their sum |
| RunProofs.NoLimitScanIsSpec | src/Expose/Manager.php:129-219 | with no limit in force, the scan appends exactly the reference reports |
| RunProofs.ScanReportsSound | src/Expose/Manager.php:133-187 | whatever the cache holds, every report a top-level scan appends is sound with respect to the input, exceptions, restrictions and filters |
| ScanSound.RunFiltersSound | src/Expose/Manager.php:133-187 | whatever the cache holds, every report `runFilters` appends at depth `lvl` lies below the path cut to `lvl`, at a real leaf, under no excepted path, passing the restrictions, with a matching filter; on a cache hit it returns the cached list and changes nothing |
| ScanSound.WalkSound | src/Expose/Manager.php:139-182 | the same for the `while` loop from any child on: skipped children add nothing, sub-array reports are lifted, and leaf reports sit at the leaf's path |
| RunProofs.AllExceptedScansNothing | src/Expose/Manager.php:152-156 | when every path is an exception, a scan appends no report, whatever the cache holds |
| RunProofs.LimitStopsScan | src/Expose/Manager.php:226-239 | a scan started with the limit reached adds no report and no impact |
| RunProofs.ScanOvershoot | src/Expose/Manager.php:201-216 | every appended report was added below the limit, so the limit is exceeded only by the last match |
| RunProofs.CacheRecordsResult | src/Expose/Manager.php:184-187 | with a cache set, the returned list is stored under the scanned array |
| RunProofs.CacheHitReplays | src/Expose/Manager.php:133-137 | a cache that already holds the scanned array, whoever stored it, returns the stored list, appends no report and changes nothing else |
| RunProofs.CachedRescan | src/Expose/Manager.php:133-137 | rescanning a cached array returns the cached list and changes nothing |
| RunProofs.RunGate | src/Expose/Manager.php:110-117 | `run` dispatches exactly when the impact after the scan reaches the threshold, with the event of the returned matches |
| RunProofs.RunGateNoCache | src/Expose/Manager.php:108-117 | without a cache, the gate compares the earlier impact plus the new matches' impacts with the threshold |
| RunProofs.RunIsSpec | src/Expose/Manager.php:93-119 | with no cache and no limit, `run` reports exactly the reference scan of the converted input |
| RunProofs.RunsAccumulate | src/Expose/Manager.php:213-215 | impact and reports accumulate across consecutive runs and are never reset |
| RunProofs.BadExceptionScansNothing | src/Expose/Manager.php:406-418 | as written, one exception whose pattern never compiles makes `run` add no report and no impact, whatever the input and whatever the cache holds |
| Scenarios.RunSuccess | tests/ManagerTest.php:106-117 | one matching leaf gives impact 2 and one report |
| Scenarios.RunWithImpactLimit | tests/ManagerTest.php:126-146 | with limit 1, the second matching leaf is never checked: impact 2, one report |
| Scenarios.ExceptionIsIgnored | tests/ManagerTest.php:279-301 | leaves under `POST.foo` and `POST.bar.baz` are skipped: impact 0, no reports |
| Scenarios.ExceptionWildcardIsIgnored | tests/ManagerTest.php:309-327 | a leaf matched by the wildcard exception `POST.foo[0-9]+` is skipped: impact 0 |
| Scenarios.ThresholdScenario | tests/ManagerTest.php:329-370 | one catch-all filter dispatches its event exactly when its impact reaches the threshold |
| Scenarios.ThresholdLowerThanImpact | tests/ManagerTest.php:329-350 | impact 100 against threshold 7 dispatches the event |
| Scenarios.ThresholdHigherThanImpact | tests/ManagerTest.php:352-370 | impact 5 against threshold 100 dispatches nothing |
| Scenarios.DispatchEvent | tests/ManagerTest.php:372-399 | an event of impacts 5 and 15 totals 20 and reaches every listener in order |
| Scenarios.CacheStoresEmptyResult | tests/ManagerTest.php:401-411 | a run with a cache set and no filters caches the empty list under the data |
| Scenarios.TwoRunsAccumulate | src/Expose/Manager.php:213-215 | two runs over the same matching input give impact 4 and two reports |
| Scenarios.CleanRunDispatches | src/Expose/Manager.php:110-117 | with the default threshold 0 and no filters, every run dispatches an event with no filters and total impact 0 |

## Left out

- Logging (`getLogger`, `setLogger`, the log resource and database accessors), `export`, `setConfig`/`getConfig`, `FilterCollection::load`/`setFilterPath` (file I/O and JSON), and `FilterEvent::getRunTime` (wall clock): none affects the scan.
- ManagerState.NewManager and Scanner.Run: the model assumes a logger was given to the constructor. Without one the typed `$logger` property (src/Expose/Manager.php:59) stays uninitialised, and `run` throws an `Error` at its first `getLogger()->info(...)` call (src/Expose/Manager.php:95), before any scan or dispatch; `Scenarios.CleanRunDispatches` describes the run with a logger.
- `setData`/`getData` and `DataCollection`: `run` is given the data directly.
- `getReports`, `getImpact`/`setImpact`, `getFilters`/`setFilters`, `getThreshold`: plain field access, read directly as fields of the `Manager` datatype.
- The internals of `Filter::execute`, `preg_match` and `Converter::runAllConversions` are parameters (`Env`), not modelled.
- The cache is keyed by the scanned array itself, not by `md5(print_r($data, true))`: md5 collisions are not modelled, and neither are arrays that `print_r` renders alike. `print_r` writes strings raw, so `['a' => "b\n    [c] => d"]` and `['a' => 'b', 'c' => 'd']` get the same signature, and in the source a scan of the second replays the first's cached matches (src/Expose/Manager.php:133-136); the model never confuses two different arrays. Like the source's key, the model's key ignores the path, so a hit for a sub-array seen elsewhere replays its matches without adding reports or impact (`RunProofs.CachedRescan`). At the top level the source prints the `DataCollection` object that `getData` returns, not the array, so its top-level key differs from the model's.
- ManagerState.SetThreshold: only whole integers and optional-sign-and-digits text are modelled. PHP's `is_numeric` accepts other numeric strings too (decimals, exponents, leading and trailing whitespace), and `setThreshold` can also be given floats or booleans; `ThresholdArg` expresses none of these, nor the `int` property's coercion of them.
- ManagerState.SetImpactLimit: the argument is an integer already; the `(int)` cast of other PHP values is not modelled.
- PathRules.RestrictedOut compares restrictions with exact string equality; PHP's loose `in_array` comparison between numeric strings is not modelled.
- Array keys are integers or strings, never normalised: PHP's conversion of numeric-string offsets to integers, `null` offsets and negative-key appends are not modelled. The append key follows the rule `max(next, k + 1)`.
- `isset` on an offset holding `null` is not modelled: offsets only hold filters.
- Filters are values, so `setFilterImpact` updates only the copy in the collection; PHP's object aliasing (other holders of the same `Filter` object seeing the change) is not modelled.
- `setException` and `setRestriction` with string-keyed arrays: `array_merge` would overwrite string keys; the model appends.
- FilterCollections.GetFilterData: filter ids are integers compared with `==`. The source compares `getId() == $filterId` loosely (src/Expose/FilterCollection.php:123), and rule records may carry the id as a string (`"2"` in tests/ManagerTest.php:19); loose comparison between strings and numbers is not modelled.
- FilterCollections.SetFilterData: takes ready-made filters. Building `new \Expose\Filter($config)` from each record, and `get_object_vars` for object records (src/Expose/FilterCollection.php:89-94), is not modelled.
- FilterCollections.SetFilterImpact: takes an integer id. The null-id call, a fatal error in the source, is modelled by `FilterCollections.SetFilterImpactCall`.
- Scalar leaves are taken as their string form (`Values.Leaf` holds text only): the integer `1` and the string `"1"` become the same leaf, as do `null`, `false` and `""`, both for `Filter::execute` and in the reports. PHP types of leaf values are not modelled.
- Integers are unbounded; PHP integer overflow to float is not modelled.
- Concurrency is not modelled: a single `Manager` runs one call at a time.

## Findings

| source | as written | input that shows it | evidently intended | confidence | as-written member | corrected member |
|---|---|---|---|---|---|---|
| src/Expose/Manager.php:411 | `preg_match(...) !== 0` counts a pattern that fails to compile (`preg_match` returns `false`) as a match | exception `a/b` (the unescaped `/` ends the delimiter), path `POST.x`: every path becomes an exception, so nothing is scanned | a pattern that fails to compile covers only the path equal to it | not executed | PathRules.InvalidPatternCoversEverything | PathRules.IsException |

=== FILE: filter.dfy ===
/** A detection rule and the additive impact score over a list of rules. */
module Filters {

  /** A rule as loaded from a rule record: identifier, regular-expression
      body, description, tags and impact weight. Only `impact` is ever
      changed after construction. */
  datatype Filter = Filter(
    id: int,
    rule: string,
    description: string,
    tags: seq<string>,
    impact: int)

  /** Sum of the impacts of a list of filters. */
  function ImpactSum(fs: seq<Filter>): int {
    if fs == [] then 0 else fs[0].impact + ImpactSum(fs[1..])
  }

  /** The impact of a concatenation is the sum of the parts' impacts. */
  lemma {:induction false} ImpactSumAppend(a: seq<Filter>, b: seq<Filter>)
    ensures ImpactSum(a + b) == ImpactSum(a) + ImpactSum(b)
  {
    if a == [] {
      assert a + b == b;
    } else {
      assert (a + b)[1..] == a[1..] + b;
      ImpactSumAppend(a[1..], b);
    }
  }
}

=== FILE: filter_collection.dfy ===
/** The ordered, integer-indexed store of filters: `ArrayAccess`,
    `Iterator` and `Countable` over a PHP array of filters. */
module FilterCollections {
  import opened Wrappers
  import opened Filters

  /** One key/value pair of the underlying PHP array. */
  datatype Slot = Slot(offset: int, filter: Filter)

  /** `slots` lists the array's pairs in insertion order, `nextFree` is the
      key the next `[] =` append uses, and `index` is the iterator cursor. */
  datatype FilterCollection = FilterCollection(slots: seq<Slot>, nextFree: int, index: int)

  /** A fresh collection: no filters, cursor at 0. */
  function Empty(): FilterCollection {
    FilterCollection([], 0, 0)
  }

  predicate HasOffset(slots: seq<Slot>, k: int) {
    exists j :: 0 <= j < |slots| && slots[j].offset == k
  }

  /** What every PHP array satisfies: keys are distinct, and the append key
      is above every integer key ever stored. */
  ghost predicate WellFormed(c: FilterCollection) {
    && c.nextFree >= 0
    && (forall i :: 0 <= i < |c.slots| ==> c.slots[i].offset < c.nextFree)
    && (forall i, j :: 0 <= i < j < |c.slots| ==> c.slots[i].offset != c.slots[j].offset)
  }

  /** Where key `k` sits in insertion order, if anywhere. */
  function Position(slots: seq<Slot>, k: int): (r: Option<nat>)
    ensures r.Some? ==> r.value < |slots| && slots[r.value].offset == k
    ensures r.Some? ==> forall j :: 0 <= j < r.value ==> slots[j].offset != k
    ensures r.None? <==> !HasOffset(slots, k)
  {
    if slots == [] then None
    else if slots[0].offset == k then Some(0)
    else
      match Position(slots[1..], k)
      case None =>
        assert forall j :: 1 <= j < |slots| ==> slots[j] == slots[1..][j - 1];
        None
      case Some(p) => Some(p + 1)
  }

  /** The filter stored under key `k`, or null. */
  function Lookup(slots: seq<Slot>, k: int): (r: Option<Filter>)
    ensures r.Some? <==> HasOffset(slots, k)
    ensures r.Some? ==> Slot(k, r.value) in slots
  {
    match Position(slots, k)
    case None => None
    case Some(p) => Some(slots[p].filter)
  }

  /** `offsetGet`: the filter at the offset, null when it is absent. */
  function OffsetGet(c: FilterCollection, k: int): (r: Option<Filter>)
    ensures r.Some? <==> HasOffset(c.slots, k)
    ensures r.Some? ==> Slot(k, r.value) in c.slots
  {
    Lookup(c.slots, k)
  }

  /** `offsetExists`: `isset` of the offset. */
  function OffsetExists(c: FilterCollection, k: int): (r: bool)
    ensures r <==> OffsetGet(c, k).Some?
  {
    Position(c.slots, k).Some?
  }

  /** Position `j` holds the earliest pair with key `k`. */
  predicate IsFirstWithOffset(slots: seq<Slot>, j: int, k: int)
    requires 0 <= j < |slots|
  {
    slots[j].offset == k && forall i :: 0 <= i < j ==> slots[i].offset != k
  }

  /** `offsetSet`: overwrite in place when the key exists, else append the
      pair and move the append key above `k`. */
  function OffsetSet(c: FilterCollection, k: int, f: Filter): (r: FilterCollection)
    ensures Count(r) == Count(c) + (if OffsetExists(c, k) then 0 else 1)
    ensures r.index == c.index
    ensures !OffsetExists(c, k) ==> r.slots == c.slots + [Slot(k, f)]
    ensures OffsetExists(c, k) ==> forall j :: 0 <= j < |c.slots| ==>
      r.slots[j] == (if IsFirstWithOffset(c.slots, j, k) then Slot(k, f) else c.slots[j])
    ensures OffsetExists(c, k) ==> r.nextFree == c.nextFree
    ensures !OffsetExists(c, k) ==> r.nextFree == if k >= c.nextFree then k + 1 else c.nextFree
  {
    match Position(c.slots, k)
    case Some(p) => c.(slots := c.slots[p := Slot(k, f)])
    case None =>
      c.(slots := c.slots + [Slot(k, f)],
         nextFree := if k >= c.nextFree then k + 1 else c.nextFree)
  }

  /** Every pair except those with key `k`, in order. */
  function RemoveOffset(slots: seq<Slot>, k: int): (r: seq<Slot>)
    ensures !HasOffset(r, k)
    ensures forall s :: s in r <==> s in slots && s.offset != k
    ensures |r| <= |slots|
  {
    if slots == [] then []
    else if slots[0].offset == k then RemoveOffset(slots[1..], k)
    else [slots[0]] + RemoveOffset(slots[1..], k)
  }

  /** `offsetUnset`: remove the key if it is set. The append key is not
      lowered, as PHP never lowers it. */
  function OffsetUnset(c: FilterCollection, k: int): (r: FilterCollection)
    ensures !OffsetExists(r, k)
    ensures Count(r) <= Count(c)
    ensures r.nextFree == c.nextFree && r.index == c.index
  {
    if Position(c.slots, k).Some? then c.(slots := RemoveOffset(c.slots, k)) else c
  }

  /** `count`: the number of stored filters. */
  function Count(c: FilterCollection): nat {
    |c.slots|
  }

  // The iterator protocol. The cursor is an integer key, not a position:
  // iteration visits keys 0, 1, 2, ... and stops at the first unset key.

  /** `rewind`: the cursor goes back to key 0, where `current` reads the
      filter stored under 0. */
  function Rewind(c: FilterCollection): (r: FilterCollection)
    ensures r.slots == c.slots && r.nextFree == c.nextFree
    ensures Key(r) == 0
    ensures Current(r) == OffsetGet(c, 0)
  {
    c.(index := 0)
  }

  /** `current`: the filter under the cursor's key (null when unset). */
  function Current(c: FilterCollection): (r: Option<Filter>)
    ensures r.Some? <==> Valid(c)
  {
    OffsetGet(c, c.index)
  }

  /** `key`: the cursor's key, the one `current` and `valid` read. */
  function Key(c: FilterCollection): (r: int)
    ensures Current(c) == OffsetGet(c, r)
    ensures Valid(c) <==> OffsetExists(c, r)
  {
    c.index
  }

  /** `next`: the cursor moves to the following integer key. */
  function Next(c: FilterCollection): (r: FilterCollection)
    ensures r.slots == c.slots && r.nextFree == c.nextFree
    ensures Key(r) == Key(c) + 1
  {
    c.(index := c.index + 1)
  }

  /** `valid`: `isset` of the cursor's key. */
  predicate Valid(c: FilterCollection) {
    OffsetExists(c, c.index)
  }

  /** The number of pairs whose key is at least `i`; it bounds how far the
      cursor can still advance. */
  function Remaining(slots: seq<Slot>, i: int): nat {
    if slots == [] then 0
    else (if slots[0].offset >= i then 1 else 0) + Remaining(slots[1..], i)
  }

  lemma {:induction false} RemainingMonotone(slots: seq<Slot>, i: int)
    ensures Remaining(slots, i + 1) <= Remaining(slots, i)
    ensures HasOffset(slots, i) ==> Remaining(slots, i + 1) < Remaining(slots, i)
  {
    if slots != [] {
      RemainingMonotone(slots[1..], i);
      if HasOffset(slots, i) && slots[0].offset != i {
        var j :| 0 <= j < |slots| && slots[j].offset == i;
        assert slots[1..][j - 1].offset == i;
      }
    }
  }

  /** The filters an iteration from key `i` visits: those under keys
      i, i+1, ... up to, not including, the first unset key. */
  function IterFrom(slots: seq<Slot>, i: int): (s: seq<Filter>)
    ensures forall j :: 0 <= j < |s| ==> Lookup(slots, i + j) == Some(s[j])
    ensures Lookup(slots, i + |s|) == None
    decreases Remaining(slots, i)
  {
    if Lookup(slots, i).None? then []
    else
      RemainingMonotone(slots, i);
      var rest := IterFrom(slots, i + 1);
      IterStep(slots, i, Lookup(slots, i).value, rest);
      [Lookup(slots, i).value] + rest
  }

  lemma IterStep(slots: seq<Slot>, i: int, f: Filter, rest: seq<Filter>)
    requires Lookup(slots, i) == Some(f)
    requires forall j :: 0 <= j < |rest| ==> Lookup(slots, i + 1 + j) == Some(rest[j])
    requires Lookup(slots, i + 1 + |rest|) == None
    ensures forall j :: 0 <= j < |rest| + 1 ==> Lookup(slots, i + j) == Some(([f] + rest)[j])
    ensures Lookup(slots, i + |[f] + rest|) == None
  {
    forall j | 0 <= j < |rest| + 1
      ensures Lookup(slots, i + j) == Some(([f] + rest)[j])
    {
      if j > 0 {
        assert Lookup(slots, i + 1 + (j - 1)) == Some(rest[j - 1]);
      }
    }
  }

  /** What a rewound iteration over the collection yields. */
  function IterSeq(c: FilterCollection): seq<Filter> {
    IterFrom(c.slots, 0)
  }

  /** `addFilter`: append under the next free key. */
  function AddFilter(c: FilterCollection, f: Filter): (r: FilterCollection)
    ensures Count(r) == Count(c) + 1
    ensures r.nextFree == c.nextFree + 1 && r.index == c.index
    ensures r.slots[|c.slots|] == Slot(c.nextFree, f)
  {
    c.(slots := c.slots + [Slot(c.nextFree, f)], nextFree := c.nextFree + 1)
  }

  /** `setFilterData`: one `addFilter` per record, in record order. The
      records are taken to be already-constructed filters. */
  function SetFilterData(c: FilterCollection, fs: seq<Filter>): (r: FilterCollection)
    ensures Count(r) == Count(c) + |fs|
    ensures r.index == c.index
    decreases |fs|
  {
    if fs == [] then c else SetFilterData(AddFilter(c, fs[0]), fs[1..])
  }

  /** Position of the first filter, in insertion order, with the given id. */
  function IdPosition(slots: seq<Slot>, id: int): (r: Option<nat>)
    ensures r.Some? ==> r.value < |slots| && slots[r.value].filter.id == id
    ensures r.Some? ==> forall j :: 0 <= j < r.value ==> slots[j].filter.id != id
    ensures r.None? ==> forall j :: 0 <= j < |slots| ==> slots[j].filter.id != id
  {
    if slots == [] then None
    else if slots[0].filter.id == id then Some(0)
    else
      match IdPosition(slots[1..], id)
      case None =>
        assert forall j :: 1 <= j < |slots| ==> slots[j] == slots[1..][j - 1];
        None
      case Some(p) => Some(p + 1)
  }

  /** The two shapes `getFilterData` returns: the whole array, or one
      filter (possibly null). */
  datatype FilterData = AllFilters(slots: seq<Slot>) | OneFilter(found: Option<Filter>)

  /** `getFilterData`: with no id the whole store; with an id the first
      filter carrying it, or null. */
  function GetFilterData(c: FilterCollection, id: Option<int>): (r: FilterData)
    ensures id.None? ==> r == AllFilters(c.slots)
    ensures id.Some? ==> r.OneFilter?
    ensures id.Some? && r.found.None? ==>
      forall j :: 0 <= j < |c.slots| ==> c.slots[j].filter.id != id.value
    ensures id.Some? && r.found.Some? ==>
      exists j :: 0 <= j < |c.slots| && c.slots[j].filter == r.found.value
        && IsFirstWithId(c.slots, j, id.value)
  {
    match id
    case None => AllFilters(c.slots)
    case Some(n) =>
      match IdPosition(c.slots, n)
      case None => OneFilter(None)
      case Some(p) =>
        assert IsFirstWithId(c.slots, p, n);
        OneFilter(Some(c.slots[p].filter))
  }

  /** Position `j` holds the earliest filter with the given id. */
  predicate IsFirstWithId(slots: seq<Slot>, j: int, id: int)
    requires 0 <= j < |slots|
  {
    slots[j].filter.id == id && forall i :: 0 <= i < j ==> slots[i].filter.id != id
  }

  /** `setFilterImpact`: only the filter `getFilterData(id)` finds gets the
      new impact; every other pair, every key and the order stay as they
      were, and an unknown id changes nothing. */
  function SetFilterImpact(c: FilterCollection, id: int, v: int): (r: FilterCollection)
    ensures |r.slots| == |c.slots| && r.nextFree == c.nextFree && r.index == c.index
    ensures forall j :: 0 <= j < |c.slots| ==>
      r.slots[j] == (if IsFirstWithId(c.slots, j, id)
                     then Slot(c.slots[j].offset, c.slots[j].filter.(impact := v))
                     else c.slots[j])
    ensures GetFilterData(c, Some(id)).found.None? ==> r == c
  {
    match IdPosition(c.slots, id)
    case None => c
    case Some(p) =>
      var s := c.slots[p];
      c.(slots := c.slots[p := Slot(s.offset, s.filter.(impact := v))])
  }

  /** The fatal error `setFilterImpact` raises for a null id. */
  datatype ImpactError = MethodCallOnArray

  /** `setFilterImpact` with the id as the caller passes it: with a null id
      `getFilterData` returns the whole array, not null, and calling
      `setImpact` on an array is a fatal error; with an id it is the update
      above. */
  function SetFilterImpactCall(c: FilterCollection, id: Option<int>, v: int): (r: Result<FilterCollection, ImpactError>)
    ensures r.Err? <==> id.None?
    ensures r.Err? ==> GetFilterData(c, id).AllFilters?
    ensures r.Ok? ==> r.value == SetFilterImpact(c, id.value, v)
  {
    match id
    case None => Err(MethodCallOnArray)
    case Some(n) => Ok(SetFilterImpact(c, n, v))
  }
}

=== FILE: filter_collection_proofs.dfy ===
/** Properties of the filter store: the array-access round trips, the
    append behaviour of `addFilter`/`setFilterData`, the lookup and impact
    override by id, and the order an iteration visits. */
module FilterCollectionProofs {
  import opened Wrappers
  import opened Filters
  import opened FilterCollections

  /** Key lookup depends only on the keys, not on the stored filters. */
  lemma {:induction false} PositionSameOffsets(a: seq<Slot>, b: seq<Slot>, k: int)
    requires |a| == |b|
    requires forall j :: 0 <= j < |a| ==> a[j].offset == b[j].offset
    ensures Position(a, k) == Position(b, k)
  {
    if a != [] && a[0].offset != k {
      PositionSameOffsets(a[1..], b[1..], k);
    }
  }

  /** Looking up a key after one more pair is appended. */
  lemma {:induction false} PositionAppend(slots: seq<Slot>, s: Slot, k: int)
    ensures Position(slots + [s], k) ==
      if Position(slots, k).Some? then Position(slots, k)
      else if s.offset == k then Some(|slots|)
      else None
  {
    if slots == [] {
      assert [] + [s] == [s];
    } else if slots[0].offset != k {
      assert (slots + [s])[1..] == slots[1..] + [s];
      PositionAppend(slots[1..], s, k);
    }
  }

  /** `offsetSet` then `offsetGet` at the same offset returns the stored
      filter, and every other offset reads as before. */
  lemma OffsetSetThenGet(c: FilterCollection, k: int, f: Filter, other: int)
    ensures OffsetGet(OffsetSet(c, k, f), k) == Some(f)
    ensures other != k ==> OffsetGet(OffsetSet(c, k, f), other) == OffsetGet(c, other)
  {
    var r := OffsetSet(c, k, f);
    match Position(c.slots, k)
    case Some(p) =>
      PositionSameOffsets(c.slots, r.slots, k);
      PositionSameOffsets(c.slots, r.slots, other);
    case None =>
      PositionAppend(c.slots, Slot(k, f), k);
      PositionAppend(c.slots, Slot(k, f), other);
  }

  /** Looking up a key in a non-empty store: the first pair if it holds
      the key, else the rest. */
  lemma LookupFirst(slots: seq<Slot>, k: int)
    requires slots != []
    ensures Lookup(slots, k) ==
      if slots[0].offset == k then Some(slots[0].filter) else Lookup(slots[1..], k)
  {
  }

  lemma {:induction false} LookupRemove(slots: seq<Slot>, k: int, other: int)
    requires other != k
    ensures Lookup(RemoveOffset(slots, k), other) == Lookup(slots, other)
  {
    if slots != [] {
      LookupRemove(slots[1..], k, other);
      LookupFirst(slots, other);
      if slots[0].offset != k {
        var r := [slots[0]] + RemoveOffset(slots[1..], k);
        assert r[1..] == RemoveOffset(slots[1..], k);
        LookupFirst(r, other);
      }
    }
  }

  /** `offsetUnset` of an absent offset leaves the store unchanged; of a
      present one, makes it absent and leaves every other offset alone. */
  lemma OffsetUnsetEffect(c: FilterCollection, k: int, other: int)
    ensures !OffsetExists(c, k) ==> OffsetUnset(c, k) == c
    ensures !OffsetExists(OffsetUnset(c, k), k)
    ensures other != k ==> OffsetGet(OffsetUnset(c, k), other) == OffsetGet(c, other)
  {
    if other != k && OffsetExists(c, k) {
      LookupRemove(c.slots, k, other);
    }
  }

  /** Appending under the next free key is the same as `offsetSet` at that
      key: the key was free, so nothing is overwritten. The count grows by
      one, earlier pairs stay, and the new filter is last. */
  lemma AddFilterAppends(c: FilterCollection, f: Filter)
    requires WellFormed(c)
    ensures AddFilter(c, f) == OffsetSet(c, c.nextFree, f)
    ensures Count(AddFilter(c, f)) == Count(c) + 1
    ensures AddFilter(c, f).slots[..|c.slots|] == c.slots
    ensures AddFilter(c, f).slots[|c.slots|].filter == f
    ensures OffsetGet(AddFilter(c, f), c.nextFree) == Some(f)
  {
    assert !HasOffset(c.slots, c.nextFree);
    OffsetSetThenGet(c, c.nextFree, f, c.nextFree);
  }

  /** `offsetSet` keeps the store a well-formed PHP array. */
  lemma OffsetSetKeepsWellFormed(c: FilterCollection, k: int, f: Filter)
    requires WellFormed(c)
    ensures WellFormed(OffsetSet(c, k, f))
  {
    var r := OffsetSet(c, k, f);
    match Position(c.slots, k)
    case Some(p) =>
      assert forall j :: 0 <= j < |r.slots| ==> r.slots[j].offset == c.slots[j].offset;
    case None =>
      assert forall j :: 0 <= j < |c.slots| ==> r.slots[j] == c.slots[j];
  }

  /** `addFilter` and `setFilterImpact` keep the store well formed. */
  lemma AppendAndOverrideKeepWellFormed(c: FilterCollection, f: Filter, id: int, v: int)
    requires WellFormed(c)
    ensures WellFormed(AddFilter(c, f))
    ensures WellFormed(SetFilterImpact(c, id, v))
  {
    var r := SetFilterImpact(c, id, v);
    assert forall j :: 0 <= j < |r.slots| ==> r.slots[j].offset == c.slots[j].offset;
  }

  lemma RemoveKeepsWellFormed(c: FilterCollection, k: int)
    requires WellFormed(c)
    ensures WellFormed(OffsetUnset(c, k))
  {
    if OffsetExists(c, k) {
      RemoveKeepsKeysDistinct(c.slots, k);
      var r := RemoveOffset(c.slots, k);
      forall i | 0 <= i < |r|
        ensures r[i].offset < c.nextFree
      {
        assert r[i] in c.slots;
      }
    }
  }

  /** Removal keeps the remaining keys distinct. */
  lemma {:induction false} RemoveKeepsKeysDistinct(slots: seq<Slot>, k: int)
    requires forall i, j :: 0 <= i < j < |slots| ==> slots[i].offset != slots[j].offset
    ensures forall i, j :: 0 <= i < j < |RemoveOffset(slots, k)| ==>
      RemoveOffset(slots, k)[i].offset != RemoveOffset(slots, k)[j].offset
  {
    if slots != [] {
      RemoveKeepsKeysDistinct(slots[1..], k);
      var rest := RemoveOffset(slots[1..], k);
      if slots[0].offset != k {
        var r := [slots[0]] + rest;
        forall i, j | 0 <= i < j < |r|
          ensures r[i].offset != r[j].offset
        {
          if i == 0 {
            assert r[j] in slots[1..];
          }
        }
      }
    }
  }

  /** Removing a key from two halves separately is removing it from the
      whole: the kept pairs of the first half come first. */
  lemma {:induction false} RemoveOffsetAppend(a: seq<Slot>, b: seq<Slot>, k: int)
    ensures RemoveOffset(a + b, k) == RemoveOffset(a, k) + RemoveOffset(b, k)
    decreases |a|
  {
    if a == [] {
      assert a + b == b;
    } else {
      assert (a + b)[1..] == a[1..] + b;
      RemoveOffsetAppend(a[1..], b, k);
    }
  }

  /** Removal keeps the relative order of the pairs it keeps: two kept
      pairs at positions i < j appear at positions i' < j' of the result. */
  lemma RemoveKeepsOrder(slots: seq<Slot>, k: int, i: int, j: int)
    requires 0 <= i < j < |slots|
    requires slots[i].offset != k && slots[j].offset != k
    ensures var r := RemoveOffset(slots, k);
      exists i', j' :: 0 <= i' < j' < |r| && r[i'] == slots[i] && r[j'] == slots[j]
  {
    var front, back := slots[..j], slots[j..];
    assert slots == front + back;
    RemoveOffsetAppend(front, back, k);
    var rf, rb := RemoveOffset(front, k), RemoveOffset(back, k);
    assert slots[i] in front;
    var i' :| 0 <= i' < |rf| && rf[i'] == slots[i];
    assert back[0] == slots[j];
    assert rb == [slots[j]] + RemoveOffset(back[1..], k);
    var r := RemoveOffset(slots, k);
    assert r == rf + rb;
    assert r[i'] == slots[i] && r[|rf|] == slots[j];
  }

  /** The pairs `fs` receives when appended from key `start` on. */
  function Numbered(start: int, fs: seq<Filter>): (r: seq<Slot>)
    ensures |r| == |fs|
  {
    seq(|fs|, j requires 0 <= j < |fs| => Slot(start + j, fs[j]))
  }

  /** `setFilterData` appends one filter per record, in record order,
      under consecutive keys from the next free key. */
  lemma {:induction false} SetFilterDataAppends(c: FilterCollection, fs: seq<Filter>)
    ensures SetFilterData(c, fs).slots == c.slots + Numbered(c.nextFree, fs)
    ensures SetFilterData(c, fs).nextFree == c.nextFree + |fs|
    ensures SetFilterData(c, fs).index == c.index
    decreases |fs|
  {
    if fs == [] {
      assert c.slots + Numbered(c.nextFree, fs) == c.slots;
    } else {
      var c1 := AddFilter(c, fs[0]);
      assert SetFilterData(c, fs) == SetFilterData(c1, fs[1..]);
      SetFilterDataAppends(c1, fs[1..]);
      NumberedCons(c.nextFree, fs);
      AppendAssoc(c.slots, [Slot(c.nextFree, fs[0])], Numbered(c1.nextFree, fs[1..]));
    }
  }

  lemma AppendAssoc(a: seq<Slot>, b: seq<Slot>, c: seq<Slot>)
    ensures (a + b) + c == a + (b + c)
  {
  }

  lemma NumberedCons(start: int, fs: seq<Filter>)
    requires fs != []
    ensures Numbered(start, fs) == [Slot(start, fs[0])] + Numbered(start + 1, fs[1..])
  {
  }

  /** Keys are exactly 0, 1, ..., count-1 in insertion order. */
  predicate Dense(c: FilterCollection) {
    && c.nextFree == |c.slots|
    && forall j :: 0 <= j < |c.slots| ==> c.slots[j].offset == j
  }

  lemma {:induction false} DenseLookup(slots: seq<Slot>, k: int)
    requires forall j :: 0 <= j < |slots| ==> slots[j].offset == j
    ensures 0 <= k < |slots| ==> Lookup(slots, k) == Some(slots[k].filter)
    ensures !(0 <= k < |slots|) ==> Lookup(slots, k) == None
  {
    if 0 <= k < |slots| {
      var p := Position(slots, k);
      assert slots[k].offset == k;
    }
  }

  /** Iterating a dense store visits every filter, in insertion order. */
  lemma DenseIteration(c: FilterCollection)
    requires Dense(c)
    ensures |IterSeq(c)| == |c.slots|
    ensures forall j :: 0 <= j < |c.slots| ==> IterSeq(c)[j] == c.slots[j].filter
  {
    var s := IterSeq(c);
    DenseLookup(c.slots, |s|);
    if |s| > |c.slots| {
      assert Lookup(c.slots, 0 + |c.slots|) == Some(s[|c.slots|]);
      DenseLookup(c.slots, |c.slots|);
    }
    forall j | 0 <= j < |c.slots|
      ensures s[j] == c.slots[j].filter
    {
      assert Lookup(c.slots, 0 + j) == Some(s[j]);
      DenseLookup(c.slots, j);
    }
  }

  /** Loading a list of filter records into a fresh store yields a store
      that counts them and iterates over them in record order. */
  lemma LoadedStoreIterates(fs: seq<Filter>)
    ensures Count(SetFilterData(Empty(), fs)) == |fs|
    ensures IterSeq(SetFilterData(Empty(), fs)) == fs
    ensures WellFormed(SetFilterData(Empty(), fs))
  {
    var c := SetFilterData(Empty(), fs);
    LoadedIsNumbered(fs);
    NumberedIsDense(fs);
    DenseIteration(c);
    assert IterSeq(c) == fs by {
      forall j | 0 <= j < |fs| ensures IterSeq(c)[j] == fs[j] {
        assert c.slots[j] == Slot(0 + j, fs[j]);
      }
    }
  }

  lemma LoadedIsNumbered(fs: seq<Filter>)
    ensures SetFilterData(Empty(), fs) == FilterCollection(Numbered(0, fs), |fs|, 0)
  {
    SetFilterDataAppends(Empty(), fs);
    assert [] + Numbered(0, fs) == Numbered(0, fs);
  }

  lemma NumberedIsDense(fs: seq<Filter>)
    ensures Dense(FilterCollection(Numbered(0, fs), |fs|, 0))
    ensures WellFormed(FilterCollection(Numbered(0, fs), |fs|, 0))
  {
    var slots := Numbered(0, fs);
    forall j | 0 <= j < |slots|
      ensures slots[j].offset == j
    {
      assert slots[j] == Slot(0 + j, fs[j]);
    }
  }

  /** After `setFilterImpact(id, v)`, `getFilterData(id)` finds the same
      filter as before with impact `v`; an unknown id still finds nothing. */
  lemma SetFilterImpactThenGet(c: FilterCollection, id: int, v: int)
    ensures GetFilterData(SetFilterImpact(c, id, v), Some(id)).found ==
      match GetFilterData(c, Some(id)).found
      case None => None
      case Some(f) => Some(f.(impact := v))
  {
    var r := SetFilterImpact(c, id, v);
    match IdPosition(c.slots, id)
    case None =>
    case Some(p) =>
      assert IsFirstWithId(c.slots, p, id);
      assert IsFirstWithId(r.slots, p, id);
      var q :| 0 <= q < |c.slots| && c.slots[q].filter == GetFilterData(c, Some(id)).found.value
        && IsFirstWithId(c.slots, q, id);
      FirstWithIdUnique(c.slots, q, p, id);
      var q' :| 0 <= q' < |r.slots| && r.slots[q'].filter == GetFilterData(r, Some(id)).found.value
        && IsFirstWithId(r.slots, q', id);
      FirstWithIdUnique(r.slots, q', p, id);
  }

  lemma FirstWithIdUnique(slots: seq<Slot>, a: int, b: int, id: int)
    requires 0 <= a < |slots| && 0 <= b < |slots|
    requires IsFirstWithId(slots, a, id) && IsFirstWithId(slots, b, id)
    ensures a == b
  {
  }
}

=== FILE: filter_event.dfy ===
/** The event built after a scan: an immutable snapshot of the matched
    filters and their summed impact. */
module FilterEvents {
  import opened Filters

  /** The filters are fixed at construction and the datatype has no
      mutators, so the total cannot drift from the filters. The wall-clock
      run time is not part of this model. */
  datatype FilterEvent = FilterEvent(filters: seq<Filter>, totalImpact: int)

  /** The `foreach` of `process`: adds the impacts of fs[i..] to `total`,
      left to right. */
  function Process(fs: seq<Filter>, i: nat, total: int): (r: int)
    requires i <= |fs|
    ensures r == total + ImpactSum(fs[i..])
    decreases |fs| - i
  {
    if i == |fs| then total
    else
      assert fs[i..][1..] == fs[i + 1..];
      Process(fs, i + 1, total + fs[i].impact)
  }

  /** The constructor: keeps the list and computes its total impact. */
  function NewEvent(filters: seq<Filter>): (e: FilterEvent)
    ensures e.filters == filters
    ensures e.totalImpact == ImpactSum(filters)
    ensures filters == [] ==> e.totalImpact == 0
  {
    assert filters[0..] == filters;
    FilterEvent(filters, Process(filters, 0, 0))
  }
}

=== FILE: manager.dfy ===
/** The state `Manager` keeps between calls, its configuration setters, the
    impact-limit test and event dispatch. */
module ManagerState {
  import opened Wrappers
  import opened PhpText
  import opened Filters
  import opened FilterCollections
  import opened FilterEvents
  import opened Values
  import opened PathRules

  /** Collaborators whose code is not part of this model, as parameters:
      `Filter::execute`, the anchored `preg_match` used by `isException`,
      and `Converter::runAllConversions`. */
  datatype Env = Env(
    execute: (Filter, string) -> bool,
    regex: Regex,
    convert: string -> string)

  /** A report: the key and value of the matching leaf, the path to it, and
      the one filter added to it. */
  datatype Report = Report(index: Key, value: string, path: seq<Key>, filter: Filter)

  type ListenerId = string

  /** The result cache, keyed by the scanned array itself. */
  type Cache = map<seq<Entry>, seq<Filter>>

  /** The fields of a `Manager` object. `impact` and `reports` are object
      state: they accumulate across calls to `run` and are never reset.
      `listeners` is what the listener provider returns for a filter event
      (`None` when no provider is set). */
  datatype Manager = Manager(
    filters: FilterCollection,
    impact: int,
    impactLimit: int,
    reports: seq<Report>,
    exceptions: seq<string>,
    restrictions: seq<string>,
    threshold: int,
    cache: Option<Cache>,
    listeners: Option<seq<ListenerId>>)

  /** The constructor: the given filters and every other field at its
      initial value. */
  function NewManager(filters: FilterCollection): (r: Manager)
    ensures r.filters == filters
    ensures r.impact == 0 && r.reports == [] && !LimitReached(r)
    ensures forall p :: !RestrictedOut(r.restrictions, p)
    ensures forall rx, p :: !IsException(rx, r.exceptions, p)
    ensures r.threshold == 0 && r.cache.None? && r.listeners.None?
  {
    Manager(filters, 0, 0, [], [], [], 0, None, None)
  }

  /** The limit is in force only when it is at least 1. */
  predicate Reached(limit: int, impact: int) {
    limit >= 1 && impact >= limit
  }

  /** `impactLimitReached`. */
  predicate LimitReached(m: Manager) {
    Reached(m.impactLimit, m.impact)
  }

  /** `setImpactLimit`, the argument taken to be an integer already: the
      limit test then holds exactly when the new limit is at least 1 and the
      impact already reaches it; nothing but the limit changes. */
  function SetImpactLimit(m: Manager, limit: int): (r: Manager)
    ensures LimitReached(r) <==> limit >= 1 && m.impact >= limit
    ensures limit < 1 ==> !LimitReached(r)
    ensures r.(impactLimit := m.impactLimit) == m
  {
    m.(impactLimit := limit)
  }

  /** The argument of `setException`/`setRestriction`: one path or a list. */
  datatype PathArg = One(path: string) | Many(paths: seq<string>)

  function PathList(a: PathArg): seq<string> {
    match a
    case One(p) => [p]
    case Many(ps) => ps
  }

  /** `setException`: the old exceptions, in order, then the given paths;
      nothing else changes. */
  function SetException(m: Manager, a: PathArg): (r: Manager)
    ensures r.(exceptions := m.exceptions) == m
    ensures |r.exceptions| == |m.exceptions| + |PathList(a)|
    ensures r.exceptions[..|m.exceptions|] == m.exceptions
    ensures r.exceptions[|m.exceptions|..] == PathList(a)
  {
    m.(exceptions := m.exceptions + PathList(a))
  }

  /** `setRestriction`: the old restrictions, in order, then the given
      paths; nothing else changes. */
  function SetRestriction(m: Manager, a: PathArg): (r: Manager)
    ensures r.(restrictions := m.restrictions) == m
    ensures |r.restrictions| == |m.restrictions| + |PathList(a)|
    ensures r.restrictions[..|m.restrictions|] == m.restrictions
    ensures r.restrictions[|m.restrictions|..] == PathList(a)
  {
    m.(restrictions := m.restrictions + PathList(a))
  }

  /** After `setException(p)`, `isException(p)` holds, `p` is listed, and
      the earlier exceptions are kept in order. */
  lemma SetExceptionCovers(rx: Regex, m: Manager, a: PathArg, p: string)
    requires p in PathList(a)
    ensures IsException(rx, SetException(m, a).exceptions, p)
    ensures p in SetException(m, a).exceptions
    ensures SetException(m, a).exceptions[..|m.exceptions|] == m.exceptions
  {
    assert ExceptionHit(rx, p, p);
    assert p in m.exceptions + PathList(a);
  }

  /** After `setRestriction`, a leaf at any of the given paths passes the
      restriction test; a path that passed a non-empty list still passes;
      and the earlier restrictions keep their order, the new ones last. */
  lemma SetRestrictionAdmits(m: Manager, a: PathArg, p: string, q: string)
    requires p in PathList(a)
    ensures !RestrictedOut(SetRestriction(m, a).restrictions, p)
    ensures |m.restrictions| > 0 && !RestrictedOut(m.restrictions, q) ==>
      !RestrictedOut(SetRestriction(m, a).restrictions, q)
    ensures SetRestriction(m, a).restrictions[..|m.restrictions|] == m.restrictions
    ensures SetRestriction(m, a).restrictions[|m.restrictions|..] == PathList(a)
  {
    assert p in m.restrictions + PathList(a);
  }

  /** The argument of `setThreshold`: an integer, or a string. */
  datatype ThresholdArg = Number(n: int) | Text(s: string)

  datatype ConfigError = InvalidThreshold(given: string)

  /** `is_numeric`, for integers and integer-shaped strings. */
  predicate IsNumeric(a: ThresholdArg) {
    a.Number? || IsIntegerText(a.s)
  }

  /** `setThreshold`: a non-numeric argument raises
      `InvalidArgumentException`; a numeric one is stored as an integer. */
  function SetThreshold(m: Manager, a: ThresholdArg): (r: Result<Manager, ConfigError>)
    ensures r.Err? <==> !IsNumeric(a)
    ensures r.Err? ==> a.Text? && r.error == InvalidThreshold(a.s)
    ensures r.Ok? ==> r.value.(threshold := m.threshold) == m
    ensures a.Number? ==> r.Ok? && r.value.threshold == a.n
  {
    match a
    case Number(n) => Ok(m.(threshold := n))
    case Text(s) => if IsIntegerText(s) then Ok(m.(threshold := ParseInt(s))) else Err(InvalidThreshold(s))
  }

  /** A threshold given as the decimal text of `n` is stored as `n`. */
  lemma SetThresholdFromText(m: Manager, n: int)
    ensures SetThreshold(m, Text(IntText(n))) == Ok(m.(threshold := n))
  {
    IntTextRoundTrip(n);
  }

  /** A threshold given as text with an optional sign and leading zeros is
      stored as the integer the text denotes, as the `int` property coerces
      a numeric string; every text `setThreshold` accepts has that shape. */
  lemma SetThresholdFromSignedText(m: Manager, sign: string, zeros: string, n: nat)
    requires IsSign(sign) && AllZeros(zeros)
    ensures SetThreshold(m, Text(sign + zeros + NatText(n))) ==
      Ok(m.(threshold := if sign == "-" then -(n as int) else n))
    ensures IsNumeric(Text(sign + zeros + NatText(n)))
  {
    SignedTextValue(sign, zeros, n);
  }

  /** Every accepted text is a sign, leading zeros and decimal digits. */
  lemma AcceptedThresholdShape(m: Manager, s: string)
    requires SetThreshold(m, Text(s)).Ok?
    ensures exists sign, zeros, n: nat :: IsSign(sign) && AllZeros(zeros) && s == sign + zeros + NatText(n)
  {
    IntegerTextShape(s);
  }

  /** `setCache`: the cache is set and nothing else changes. */
  function SetCache(m: Manager, c: Cache): (r: Manager)
    ensures r.cache == Some(c)
    ensures r.(cache := m.cache) == m
  {
    m.(cache := Some(c))
  }

  /** `setListenerProvider`, with the provider given by the listeners it
      returns for a filter event: `dispatch` then reaches exactly those
      listeners, and nothing else changes. */
  function SetListenerProvider(m: Manager, listeners: seq<ListenerId>): (r: Manager)
    ensures forall e :: Dispatch(r, e).invoked == listeners
    ensures r.(listeners := m.listeners) == m
  {
    m.(listeners := Some(listeners))
  }

  /** What `dispatch` returns, and the listeners it called, in order. */
  datatype Dispatched = Dispatched(event: FilterEvent, invoked: seq<ListenerId>)

  /** `dispatch`: calls each listener of the provider in order with the
      event, and returns the event itself; with no provider it calls
      nothing. Listeners cannot alter a `FilterEvent`, which has no
      mutators. */
  function Dispatch(m: Manager, e: FilterEvent): (r: Dispatched)
    ensures r.event == e
    ensures m.listeners.None? ==> r.invoked == []
    ensures m.listeners.Some? ==> r.invoked == m.listeners.value
  {
    match m.listeners
    case None => Dispatched(e, [])
    case Some(ls) => Dispatched(e, ls)
  }
}

=== FILE: path_rules.dfy ===
/** Exception and restriction matching on dotted paths (`isException` and
    the restriction test of `runFilters`). */
module PathRules {

  /** What `preg_match('/^' . pattern . '$/', subject)` returns: 1, 0, or
      `false` when the pattern does not compile (an unescaped `/` in the
      pattern ends the delimiter, an unbalanced bracket, ...). */
  datatype RegexOutcome = Matched | NoMatch | Invalid

  /** The anchored regex matcher, left abstract: (pattern body, subject). */
  type Regex = (string, string) -> RegexOutcome

  /** One exception covers a path when it equals the path or, read as a
      regular expression anchored at both ends, matches it. A pattern that
      does not compile matches nothing but itself. */
  predicate ExceptionHit(rx: Regex, exception: string, path: string) {
    path == exception || rx(exception, path) == Matched
  }

  /** The `foreach` of `isException`: the flag, once set, stays set, and no
      further exception is consulted. */
  function ExceptionLoop(rx: Regex, exceptions: seq<string>, path: string, found: bool): (r: bool)
    ensures r <==> found || exists i :: 0 <= i < |exceptions| && ExceptionHit(rx, exceptions[i], path)
  {
    if exceptions == [] then found
    else
      var found' := if !found && ExceptionHit(rx, exceptions[0], path) then true else found;
      var r := ExceptionLoop(rx, exceptions[1..], path, found');
      assert forall i :: 1 <= i < |exceptions| ==> exceptions[i] == exceptions[1..][i - 1];
      r
  }

  /** `isException`: some stored exception covers the path. */
  function IsException(rx: Regex, exceptions: seq<string>, path: string): (r: bool)
    ensures r <==> exists e :: e in exceptions && ExceptionHit(rx, e, path)
  {
    ExceptionLoop(rx, exceptions, path, false)
  }

  /** The restriction test: with a non-empty restriction list, a leaf is
      skipped unless its dotted path is literally one of the entries. */
  predicate RestrictedOut(restrictions: seq<string>, path: string) {
    |restrictions| > 0 && path !in restrictions
  }

  // The test as the source writes it: `preg_match(...) !== 0`. For a
  // pattern that does not compile `preg_match` returns `false`, and
  // `false !== 0` holds, so such a pattern covers every path.

  predicate ExceptionHitAsWritten(rx: Regex, exception: string, path: string) {
    path == exception || rx(exception, path) != NoMatch
  }

  function IsExceptionAsWritten(rx: Regex, exceptions: seq<string>, path: string): bool {
    exists e :: e in exceptions && ExceptionHitAsWritten(rx, e, path)
  }

  /** As written, one exception whose pattern fails to compile makes every
      path an exception, so nothing at all is scanned; the corrected test
      lets such a pattern cover only the path equal to it. */
  lemma InvalidPatternCoversEverything(rx: Regex, exceptions: seq<string>, bad: string, path: string)
    requires bad in exceptions
    requires rx(bad, path) == Invalid
    ensures IsExceptionAsWritten(rx, exceptions, path)
    ensures path != bad ==> !ExceptionHit(rx, bad, path)
  {
    assert ExceptionHitAsWritten(rx, bad, path);
  }

  /** A matcher that rejects any pattern containing `/`, as PHP rejects
      the unescaped `/` of `a/b` inside `/^a/b$/`, and otherwise matches
      only the literal text. */
  function SlashRejectingRegex(): Regex {
    (pattern: string, subject: string) =>
      if '/' in pattern then Invalid else if pattern == subject then Matched else NoMatch
  }

  /** With the exception `a/b` set, the source treats `POST.x` as an
      exception; the corrected test does not. */
  lemma SlashExceptionExample()
    ensures IsExceptionAsWritten(SlashRejectingRegex(), ["a/b"], "POST.x")
    ensures !IsException(SlashRejectingRegex(), ["a/b"], "POST.x")
  {
    var rx := SlashRejectingRegex();
    assert '/' in "a/b" by { assert "a/b"[1] == '/'; }
    assert rx("a/b", "POST.x") == Invalid;
    InvalidPatternCoversEverything(rx, ["a/b"], "a/b", "POST.x");
    assert "POST.x" != "a/b" by { assert "POST.x"[0] != "a/b"[0]; }
  }

  /** The source's test as an instance of the corrected one: the matcher
      that reads a pattern which does not compile as a match. */
  function AsWritten(rx: Regex): Regex {
    (pattern: string, subject: string) =>
      if rx(pattern, subject) == Invalid then Matched else rx(pattern, subject)
  }

  /** With `AsWritten(rx)` as the matcher, the corrected test is exactly the
      source's test under `rx`, so whatever holds of a scan for every
      matcher holds of the scan as written too. */
  lemma AsWrittenInstance(rx: Regex, exceptions: seq<string>, path: string)
    ensures IsException(AsWritten(rx), exceptions, path) == IsExceptionAsWritten(rx, exceptions, path)
  {
    forall e | e in exceptions
      ensures ExceptionHit(AsWritten(rx), e, path) == ExceptionHitAsWritten(rx, e, path)
    {
    }
  }

  /** On patterns that compile, the source's test and the corrected one agree. */
  lemma AgreeOnValidPatterns(rx: Regex, exceptions: seq<string>, path: string)
    requires forall e :: e in exceptions ==> rx(e, path) != Invalid
    ensures IsExceptionAsWritten(rx, exceptions, path) <==> IsException(rx, exceptions, path)
  {
    if IsExceptionAsWritten(rx, exceptions, path) {
      var e :| e in exceptions && ExceptionHitAsWritten(rx, e, path);
      assert ExceptionHit(rx, e, path);
    }
  }
}

=== FILE: php_text.dfy ===
/** The PHP string conversions the scanner depends on: decimal rendering of
    integer array keys (as `implode` does), recognition of integer-shaped
    numeric strings (as `is_numeric` does for them), and `implode` itself. */
module PhpText {

  predicate IsDigit(c: char) {
    '0' <= c <= '9'
  }

  function DigitChar(d: nat): (c: char)
    requires d < 10
    ensures IsDigit(c) && DigitValue(c) == d
  {
    ('0' as int + d) as char
  }

  function DigitValue(c: char): nat
    requires IsDigit(c)
  {
    c as int - '0' as int
  }

  predicate AllDigits(s: string) {
    forall i :: 0 <= i < |s| ==> IsDigit(s[i])
  }

  /** Decimal text of a natural number, most significant digit first. */
  function NatText(n: nat): (s: string)
    ensures |s| > 0 && AllDigits(s)
    ensures n < 10 <==> |s| == 1
  {
    if n < 10 then [DigitChar(n)] else NatText(n / 10) + [DigitChar(n % 10)]
  }

  /** PHP's string conversion of an integer: a minus sign for negatives. */
  function IntText(n: int): string {
    if n < 0 then "-" + NatText(-n) else NatText(n)
  }

  /** The integer-shaped strings `is_numeric` accepts: an optional sign
      followed by at least one decimal digit. */
  predicate IsIntegerText(s: string) {
    || (|s| > 0 && AllDigits(s))
    || (|s| > 1 && (s[0] == '-' || s[0] == '+') && AllDigits(s[1..]))
  }

  /** Value of a digit string, read most significant digit first. */
  function DigitsValue(s: string): nat
    requires AllDigits(s)
  {
    if s == [] then 0 else DigitsValue(s[..|s| - 1]) * 10 + DigitValue(s[|s| - 1])
  }

  /** The integer an integer-shaped numeric string converts to. */
  function ParseInt(s: string): int
    requires IsIntegerText(s)
  {
    if s[0] == '-' then -(DigitsValue(s[1..]) as int)
    else if s[0] == '+' then DigitsValue(s[1..])
    else DigitsValue(s)
  }

  lemma {:induction false} NatTextValue(n: nat)
    ensures DigitsValue(NatText(n)) == n
  {
    if n >= 10 {
      NatTextValue(n / 10);
      var s := NatText(n);
      assert s[..|s| - 1] == NatText(n / 10);
    }
  }

  /** Rendering an integer and reading it back gives the integer: the text
      of an integer key is a numeric string denoting exactly that key. */
  lemma IntTextRoundTrip(n: int)
    ensures IsIntegerText(IntText(n))
    ensures ParseInt(IntText(n)) == n
  {
    var s := IntText(n);
    if n < 0 {
      var digits := NatText(-n);
      assert s == "-" + digits;
      assert s[1..] == digits;
      NatTextValue(-n);
      assert s[0] == '-';
    } else {
      assert s == NatText(n);
      assert IsDigit(s[0]);
      NatTextValue(n);
    }
  }

  predicate AllZeros(s: string) {
    forall i :: 0 <= i < |s| ==> s[i] == '0'
  }

  /** The sign an integer-shaped numeric string may start with. */
  predicate IsSign(s: string) {
    s == "" || s == "+" || s == "-"
  }

  /** Leading zeros do not change the value of a digit string. */
  lemma {:induction false} LeadingZerosValue(zeros: string, t: string)
    requires AllZeros(zeros) && AllDigits(t)
    ensures AllDigits(zeros + t)
    ensures DigitsValue(zeros + t) == DigitsValue(t)
    decreases |zeros| + |t|
  {
    var s := zeros + t;
    if t == [] {
      assert s == zeros;
      if zeros != [] {
        LeadingZerosValue(zeros[..|zeros| - 1], []);
        assert s[..|s| - 1] == zeros[..|zeros| - 1] + [];
      }
    } else {
      LeadingZerosValue(zeros, t[..|t| - 1]);
      assert s[..|s| - 1] == zeros + t[..|t| - 1];
    }
  }

  /** Numeric text with an optional sign and any number of leading zeros
      converts to the integer its digits denote: "+7" and "007" to 7,
      "-0" to 0. */
  lemma SignedTextValue(sign: string, zeros: string, n: nat)
    requires IsSign(sign) && AllZeros(zeros)
    ensures IsIntegerText(sign + zeros + NatText(n))
    ensures ParseInt(sign + zeros + NatText(n)) == if sign == "-" then -(n as int) else n
  {
    var digits := zeros + NatText(n);
    LeadingZerosValue(zeros, NatText(n));
    NatTextValue(n);
    var s := sign + zeros + NatText(n);
    assert s == sign + digits;
    if sign == "" {
      assert s == digits;
      assert IsDigit(s[0]);
    } else {
      assert s[0] == sign[0];
      assert s[1..] == digits;
    }
  }

  /** A digit string without a leading zero is the decimal text of its
      value, which is positive unless the string is "0". */
  lemma {:induction false} CanonicalDigits(d: string)
    requires |d| > 0 && AllDigits(d) && (d[0] != '0' || |d| == 1)
    ensures NatText(DigitsValue(d)) == d
    ensures d[0] != '0' ==> DigitsValue(d) > 0
    decreases |d|
  {
    var init := d[..|d| - 1];
    var c := d[|d| - 1];
    if |d| == 1 {
      assert init == [];
      assert DigitChar(DigitValue(c)) == c;
    } else {
      assert init[0] == d[0];
      CanonicalDigits(init);
      var x := DigitsValue(init);
      assert DigitsValue(d) == x * 10 + DigitValue(c);
      assert (x * 10 + DigitValue(c)) / 10 == x;
      assert (x * 10 + DigitValue(c)) % 10 == DigitValue(c);
      assert DigitChar(DigitValue(c)) == c;
      assert d == init + [c];
    }
  }

  /** Every non-empty digit string is some leading zeros followed by the
      decimal text of a natural number. */
  lemma {:induction false} DigitsShape(d: string)
    requires |d| > 0 && AllDigits(d)
    ensures exists zeros, n: nat :: AllZeros(zeros) && d == zeros + NatText(n)
    decreases |d|
  {
    if d[0] == '0' && |d| > 1 {
      var t := d[1..];
      DigitsShape(t);
      var z, n: nat :| AllZeros(z) && t == z + NatText(n);
      ZerosCons(z);
      assert d == [d[0]] + t;
      assert [d[0]] + (z + NatText(n)) == ([d[0]] + z) + NatText(n);
    } else {
      CanonicalDigits(d);
      assert AllZeros("");
      assert d == "" + NatText(DigitsValue(d));
    }
  }

  /** Zeros with one more zero in front are still zeros. */
  lemma ZerosCons(z: string)
    requires AllZeros(z)
    ensures AllZeros("0" + z)
  {
    forall i | 0 <= i < |"0" + z|
      ensures ("0" + z)[i] == '0'
    {
      if i > 0 {
        assert ("0" + z)[i] == z[i - 1];
      }
    }
  }

  /** Every integer-shaped numeric string is a sign, leading zeros and the
      decimal text of a natural number; with `SignedTextValue` this fixes
      the integer it converts to. */
  lemma IntegerTextShape(s: string)
    requires IsIntegerText(s)
    ensures exists sign, zeros, n: nat :: IsSign(sign) && AllZeros(zeros) && s == sign + zeros + NatText(n)
  {
    if |s| > 0 && AllDigits(s) {
      DigitsShape(s);
      var z, n: nat :| AllZeros(z) && s == z + NatText(n);
      assert IsSign("") && s == "" + z + NatText(n);
    } else {
      var t := s[1..];
      DigitsShape(t);
      var z, n: nat :| AllZeros(z) && t == z + NatText(n);
      var sign := s[..1];
      assert s == sign + t;
      assert IsSign(sign) && s == sign + z + NatText(n);
    }
  }

  /** PHP's `implode(glue, parts)`: the parts joined by the glue. */
  function Implode(glue: string, parts: seq<string>): string
    decreases |parts|
  {
    if parts == [] then ""
    else if |parts| == 1 then parts[0]
    else parts[0] + glue + Implode(glue, parts[1..])
  }

  /** Joining one more part extends the joined text by the glue and that part. */
  lemma {:induction false} ImplodeSnoc(glue: string, parts: seq<string>, last: string)
    requires |parts| > 0
    ensures Implode(glue, parts + [last]) == Implode(glue, parts) + glue + last
    decreases |parts|
  {
    if |parts| == 1 {
      assert (parts + [last])[1..] == [last];
    } else {
      assert (parts + [last])[1..] == parts[1..] + [last];
      ImplodeSnoc(glue, parts[1..], last);
    }
  }
}

=== FILE: run_proofs.dfy ===
/** Properties of whole scans and of `run`: the reports found without a
    cache are the reference scan's, cut short only by the impact limit;
    impact adds up across runs; the cache records and replays results; and
    the dispatch gate compares the accumulated impact with the threshold. */
module RunProofs {
  import opened Wrappers
  import opened Filters
  import opened FilterCollections
  import opened FilterEvents
  import opened Values
  import opened PathRules
  import opened ManagerState
  import opened Scanner
  import opened ScanSpec
  import opened ScanProofs
  import opened ScanMatch
  import opened ScanSound

  /** The reference reports of a top-level scan of `data` with `m`'s
      configuration and filters, in iteration order. */
  function Expected(env: Env, m: Manager, data: seq<Entry>): seq<Report> {
    SpecFrom(env, m.exceptions, m.restrictions, IterSeq(m.filters), data, 0, [])
  }

  /** Without a cache, a top-level scan appends a prefix of the reference
      reports, all of them unless the impact limit is now reached; it
      returns their filters, and raises the impact by exactly those
      filters' impacts. The configuration is left as it was. */
  lemma ScanFollowsSpec(env: Env, m: Manager, data: seq<Entry>)
    requires m.cache.None?
    ensures var s := RunFilters(env, m, data, [], 0);
      && SameConfig(m, s.manager)
      && s.manager.cache.None?
      && s.manager.reports == m.reports + NewReports(m, s.manager)
      && NewReports(m, s.manager) <= Expected(env, m, data)
      && (NewReports(m, s.manager) == Expected(env, m, data) || LimitReached(s.manager))
      && s.matches == ReportFilters(NewReports(m, s.manager))
      && s.manager.impact == m.impact + ImpactSum(s.matches)
  {
    var root: seq<Key> := [];
    assert root[..0] == root;
    RunFiltersFollows(env, m, data, root, 0);
    FollowsFromTop(m, RunFilters(env, m, data, root, 0), Expected(env, m, data));
  }

  lemma FollowsFromTop(m: Manager, s: Scan, full: seq<Report>)
    requires m.cache.None? && Follows(m, s, [], full)
    ensures && SameConfig(m, s.manager)
      && s.manager.cache.None?
      && s.manager.reports == m.reports + NewReports(m, s.manager)
      && NewReports(m, s.manager) <= full
      && (NewReports(m, s.manager) == full || LimitReached(s.manager))
      && s.matches == ReportFilters(NewReports(m, s.manager))
      && s.manager.impact == m.impact + ImpactSum(s.matches)
  {
    assert [] + ReportFilters(NewReports(m, s.manager)) == ReportFilters(NewReports(m, s.manager));
  }

  /** With no impact limit in force, a scan without a cache finds exactly
      the reference reports. */
  lemma NoLimitScanIsSpec(env: Env, m: Manager, data: seq<Entry>)
    requires m.cache.None? && m.impactLimit < 1
    ensures var s := RunFilters(env, m, data, [], 0);
      && s.manager.reports == m.reports + Expected(env, m, data)
      && s.matches == ReportFilters(Expected(env, m, data))
  {
    ScanFollowsSpec(env, m, data);
  }

  /** Every report a scan appends, with or without a cache, is sound: it
      sits on a leaf of the input, under no excepted path, passes the
      restrictions, and names a filter of the collection that matches the
      leaf. */
  lemma ScanReportsSound(env: Env, m: Manager, data: seq<Entry>, r: Report)
    requires r in NewReports(m, RunFilters(env, m, data, [], 0).manager)
    ensures ReportOk(env, m.exceptions, m.restrictions, IterSeq(m.filters), data, [], r)
  {
    RunFiltersSound(env, m, data, [], 0);
    var root: seq<Key> := [];
    assert root[..0] == root;
  }

  /** A scan started with the impact limit reached appends no report and
      adds no impact, cache or not. */
  lemma LimitStopsScan(env: Env, m: Manager, data: seq<Entry>, path: seq<Key>, lvl: nat)
    requires LimitReached(m)
    ensures var s := RunFilters(env, m, data, path, lvl);
      s.manager.reports == m.reports && s.manager.impact == m.impact
  {
    var s := RunFilters(env, m, data, path, lvl);
    RunFiltersGrows(env, m, data, path, lvl);
    ReachedAddsNothing(m, s.manager);
    assert s.manager.reports == s.manager.reports[..|m.reports|];
  }

  /** With the limit in force, every report a scan appends was appended
      while the impact was still below the limit, so the impact exceeds
      the limit by less than the last matching filter's impact. */
  lemma ScanOvershoot(env: Env, m: Manager, data: seq<Entry>, path: seq<Key>, lvl: nat)
    requires m.impactLimit >= 1
    ensures var s := RunFilters(env, m, data, path, lvl);
      var fs := ReportFilters(NewReports(m, s.manager));
      fs != [] ==> m.impact + ImpactSum(fs[..|fs| - 1]) < m.impactLimit
  {
    var s := RunFilters(env, m, data, path, lvl);
    RunFiltersGrows(env, m, data, path, lvl);
    var fs := ReportFilters(NewReports(m, s.manager));
    if fs != [] {
      var n := |fs| - 1;
      assert fs == fs[..n] + [fs[n]];
      BelowLimitAppend(m.impactLimit, m.impact, fs[..n], [fs[n]]);
      assert BelowLimitAll(m.impactLimit, m.impact + ImpactSum(fs[..n]), [fs[n]]);
      assert !Reached(m.impactLimit, m.impact + ImpactSum(fs[..n]));
    }
  }

  /** With a cache set, `runFilters` leaves the returned list in the cache
      under the scanned array, on a hit and on a miss alike. */
  lemma CacheRecordsResult(env: Env, m: Manager, data: seq<Entry>, path: seq<Key>, lvl: nat)
    requires m.cache.Some?
    ensures var s := RunFilters(env, m, data, path, lvl);
      s.manager.cache.Some? && data in s.manager.cache.value && s.manager.cache.value[data] == s.matches
  {
    if data !in m.cache.value {
      WalkGrows(env, m, data, 0, path, lvl, []);
    }
  }

  /** A cache that already holds the array, however it came to hold it,
      answers the scan: the stored list is returned and neither reports nor
      impact nor anything else changes. */
  lemma CacheHitReplays(env: Env, m: Manager, data: seq<Entry>, path: seq<Key>, lvl: nat)
    requires m.cache.Some? && data in m.cache.value
    ensures RunFilters(env, m, data, path, lvl) == Scan(m, m.cache.value[data])
    ensures NewReports(m, RunFilters(env, m, data, path, lvl).manager) == []
  {
    assert NewReports(m, m) == [];
  }

  /** Scanning the same array again, at any path and depth, replays the
      cached list and changes nothing: no reports and no impact. */
  lemma CachedRescan(env: Env, m: Manager, data: seq<Entry>, path: seq<Key>, lvl: nat,
                     path': seq<Key>, lvl': nat)
    requires m.cache.Some?
    ensures var s1 := RunFilters(env, m, data, path, lvl);
      RunFilters(env, s1.manager, data, path', lvl') == Scan(s1.manager, s1.matches)
  {
    CacheRecordsResult(env, m, data, path, lvl);
  }

  /** `run` dispatches exactly when the impact after the scan reaches the
      threshold; the event carries the returned matches and their total,
      and goes to the provider's listeners, or to nobody without one. */
  lemma RunGate(env: Env, m: Manager, data: seq<Entry>)
    ensures var o := Run(env, m, data);
      && (o.dispatched.Some? <==> o.manager.impact >= m.threshold)
      && (o.dispatched.Some? ==> o.dispatched.value.event == NewEvent(o.matches))
      && (o.dispatched.Some? && m.listeners.Some? ==> o.dispatched.value.invoked == m.listeners.value)
      && (o.dispatched.Some? && m.listeners.None? ==> o.dispatched.value.invoked == [])
  {
    RunFiltersGrows(env, m, ConvertTopLevel(env.convert, data), [], 0);
  }

  /** Without a cache, `run` dispatches exactly when the impact held before
      plus the impact of the returned matches reaches the threshold. */
  lemma RunGateNoCache(env: Env, m: Manager, data: seq<Entry>)
    requires m.cache.None?
    ensures var o := Run(env, m, data);
      && o.manager.impact == m.impact + ImpactSum(o.matches)
      && (o.dispatched.Some? <==> m.impact + ImpactSum(o.matches) >= m.threshold)
  {
    RunGate(env, m, data);
    ScanFollowsSpec(env, m, ConvertTopLevel(env.convert, data));
  }

  /** With no cache and no impact limit, `run` reports exactly the
      reference scan of the converted input. */
  lemma RunIsSpec(env: Env, m: Manager, data: seq<Entry>)
    requires m.cache.None? && m.impactLimit < 1
    ensures var o := Run(env, m, data);
      var expected := Expected(env, m, ConvertTopLevel(env.convert, data));
      && o.manager.reports == m.reports + expected
      && o.matches == ReportFilters(expected)
  {
    NoLimitScanIsSpec(env, m, ConvertTopLevel(env.convert, data));
  }

  /** Impact and reports accumulate over consecutive runs: they are never
      reset, so a second run starts from the first one's totals. */
  lemma RunsAccumulate(env: Env, m: Manager, d1: seq<Entry>, d2: seq<Entry>)
    requires m.cache.None?
    ensures var o1 := Run(env, m, d1);
      var o2 := Run(env, o1.manager, d2);
      && o2.manager.impact == m.impact + ImpactSum(o1.matches) + ImpactSum(o2.matches)
      && o1.manager.reports <= o2.manager.reports
      && |o2.manager.reports| == |m.reports| + |o1.matches| + |o2.matches|
  {
    var o1 := Run(env, m, d1);
    ScanFollowsSpec(env, m, ConvertTopLevel(env.convert, d1));
    ScanFollowsSpec(env, o1.manager, ConvertTopLevel(env.convert, d2));
  }

  /** The scan as written, whose exception test is the corrected one under
      the matcher `AsWritten(rx)`: one exception whose pattern never
      compiles makes `run` add no report and no impact, whatever the input
      and whatever the cache holds. */
  lemma BadExceptionScansNothing(rx: Regex, env: Env, m: Manager, data: seq<Entry>, bad: string)
    requires env.regex == AsWritten(rx)
    requires bad in m.exceptions
    requires forall p :: rx(bad, p) == Invalid
    ensures Run(env, m, data).manager.reports == m.reports
    ensures Run(env, m, data).manager.impact == m.impact
  {
    forall p
      ensures IsException(env.regex, m.exceptions, p)
    {
      assert rx(bad, p) == Invalid;
      assert ExceptionHit(env.regex, bad, p);
    }
    var d := ConvertTopLevel(env.convert, data);
    var s := RunFilters(env, m, d, [], 0);
    RunFiltersGrows(env, m, d, [], 0);
    AllExceptedScansNothing(env, m, d);
    assert s.manager.reports == m.reports + NewReports(m, s.manager);
  }

  /** When every path is an exception, a scan appends no report: each
      report it could append would sit at a path that is not one. */
  lemma AllExceptedScansNothing(env: Env, m: Manager, data: seq<Entry>)
    requires forall p :: IsException(env.regex, m.exceptions, p)
    ensures NewReports(m, RunFilters(env, m, data, [], 0).manager) == []
  {
    var news := NewReports(m, RunFilters(env, m, data, [], 0).manager);
    if news != [] {
      ScanReportsSound(env, m, data, news[0]);
      SoundReportNotExcepted(env, m, data, news[0]);
      assert false;
    }
  }

  /** A sound report of a top-level scan sits at a path that is not an
      exception. */
  lemma SoundReportNotExcepted(env: Env, m: Manager, data: seq<Entry>, r: Report)
    requires ReportOk(env, m.exceptions, m.restrictions, IterSeq(m.filters), data, [], r)
    ensures !IsException(env.regex, m.exceptions, PathText(r.path))
  {
    assert r.path[..|r.path|] == r.path;
  }
}

=== FILE: scan_match.dfy ===
/** The stateful scan against the reference scan: with no cache set, the
    reports a scan appends are a prefix of the reference reports, all of
    them unless the impact limit stopped the scan, and the list it returns
    is exactly the filters of those reports. */
module ScanMatch {
  import opened Wrappers
  import opened Filters
  import opened FilterCollections
  import opened Values
  import opened PathRules
  import opened ManagerState
  import opened Scanner
  import opened ScanSpec
  import opened ScanProofs

  /** Scan step `s`, started from `m` with `acc` already gathered, follows
      the reference reports `full`: the state grows, the appended reports
      are a prefix of `full` and all of it unless the limit is now reached,
      and the returned list is `acc` followed by their filters. */
  predicate Follows(m: Manager, s: Scan, acc: seq<Filter>, full: seq<Report>) {
    && Grows(m, s.manager)
    && NewReports(m, s.manager) <= full
    && (NewReports(m, s.manager) == full || LimitReached(s.manager))
    && s.matches == acc + ReportFilters(NewReports(m, s.manager))
  }

  /** A scan that starts with the limit reached appends nothing. */
  lemma ReachedAddsNothing(a: Manager, b: Manager)
    requires Grows(a, b) && LimitReached(a)
    ensures NewReports(a, b) == [] && b.impact == a.impact
  {
    assert ReportFilters(NewReports(a, b)) == [];
  }

  /** Two steps in sequence, the second fed the first's matches, follow the
      concatenation of their reference reports. */
  lemma FollowsChain(m: Manager, mid: Scan, s: Scan, acc: seq<Filter>, full1: seq<Report>, full2: seq<Report>)
    requires Follows(m, mid, [], full1)
    requires Follows(mid.manager, s, acc + mid.matches, full2)
    ensures Follows(m, s, acc, full1 + full2)
  {
    var n1, n2 := NewReports(m, mid.manager), NewReports(mid.manager, s.manager);
    GrowsTrans(m, mid.manager, s.manager);
    assert NewReports(m, s.manager) == n1 + n2;
    ChainMatches(acc, mid.matches, s.matches, n1, n2);
    if n1 != full1 {
      ReachedAddsNothing(mid.manager, s.manager);
      ChainCut(n1, n2, full1, full2);
      assert LimitReached(s.manager);
    } else {
      assert n1 + n2 <= full1 + full2;
    }
  }

  lemma ChainMatches(acc: seq<Filter>, mids: seq<Filter>, ms: seq<Filter>, n1: seq<Report>, n2: seq<Report>)
    requires mids == [] + ReportFilters(n1)
    requires ms == acc + mids + ReportFilters(n2)
    ensures ms == acc + ReportFilters(n1 + n2)
  {
    ReportFiltersAppend(n1, n2);
    assert [] + ReportFilters(n1) == ReportFilters(n1);
  }

  lemma ChainCut(n1: seq<Report>, n2: seq<Report>, full1: seq<Report>, full2: seq<Report>)
    requires n1 <= full1 && n2 == []
    ensures n1 + n2 <= full1 + full2
  {
    assert n1 + n2 == n1;
  }

  /** The reference reports of a leaf over `[f] + rest`: `f`'s report,
      if it matches, then those of `rest`. */
  lemma LeafReportsCons(env: Env, f: Filter, rest: seq<Filter>, key: Key, v: string, path: seq<Key>)
    ensures LeafReports(env, [f] + rest, key, v, path) ==
      (if env.execute(f, v) then [Report(key, v, path, f)] else []) + LeafReports(env, rest, key, v, path)
  {
    assert ([f] + rest)[1..] == rest;
  }

  /** From a set key, iteration yields its filter, then continues at the
      next key. */
  lemma IterFromStep(slots: seq<Slot>, i: int)
    requires Lookup(slots, i).Some?
    ensures IterFrom(slots, i) == [Lookup(slots, i).value] + IterFrom(slots, i + 1)
  {
  }

  lemma FilterLoopMatchUnfold(env: Env, m: Manager, v: string, index: Key, path: seq<Key>, acc: seq<Filter>)
    requires Valid(m.filters) && !LimitReached(m) && env.execute(Current(m.filters).value, v)
    ensures var f := Current(m.filters).value;
      FilterLoop(env, m, v, index, path, acc) ==
      FilterLoop(env, m.(filters := Next(m.filters), reports := m.reports + [Report(index, v, path, f)],
                         impact := m.impact + f.impact), v, index, path, acc + [f])
  {
  }

  lemma FilterLoopSkipUnfold(env: Env, m: Manager, v: string, index: Key, path: seq<Key>, acc: seq<Filter>)
    requires Valid(m.filters) && !LimitReached(m) && !env.execute(Current(m.filters).value, v)
    ensures FilterLoop(env, m, v, index, path, acc) ==
      FilterLoop(env, m.(filters := Next(m.filters)), v, index, path, acc)
  {
  }

  /** The filter loop follows the leaf's reference reports over the filters
      from the cursor on. */
  lemma {:induction false} FilterLoopFollows(env: Env, m: Manager, v: string, index: Key, path: seq<Key>,
                                             acc: seq<Filter>)
    ensures Follows(m, FilterLoop(env, m, v, index, path, acc), acc,
                    LeafReports(env, IterFrom(m.filters.slots, m.filters.index), index, v, path))
    decreases Remaining(m.filters.slots, m.filters.index)
  {
    if !Valid(m.filters) || LimitReached(m) {
      FilterLoopStops(env, m, v, index, path, acc);
    } else if env.execute(Current(m.filters).value, v) {
      FilterLoopMatchFollows(env, m, v, index, path, acc);
    } else {
      FilterLoopSkipFollows(env, m, v, index, path, acc);
    }
  }

  lemma FilterLoopStops(env: Env, m: Manager, v: string, index: Key, path: seq<Key>, acc: seq<Filter>)
    requires !Valid(m.filters) || LimitReached(m)
    ensures Follows(m, FilterLoop(env, m, v, index, path, acc), acc,
                    LeafReports(env, IterFrom(m.filters.slots, m.filters.index), index, v, path))
  {
    GrowsRefl(m);
    assert NewReports(m, m) == [];
    if !Valid(m.filters) {
      assert IterFrom(m.filters.slots, m.filters.index) == [];
    }
  }

  lemma {:induction false} FilterLoopSkipFollows(env: Env, m: Manager, v: string, index: Key, path: seq<Key>,
                                                 acc: seq<Filter>)
    requires Valid(m.filters) && !LimitReached(m) && !env.execute(Current(m.filters).value, v)
    ensures Follows(m, FilterLoop(env, m, v, index, path, acc), acc,
                    LeafReports(env, IterFrom(m.filters.slots, m.filters.index), index, v, path))
    decreases Remaining(m.filters.slots, m.filters.index), 0
  {
    var slots, i := m.filters.slots, m.filters.index;
    var f := Current(m.filters).value;
    RemainingMonotone(slots, i);
    IterFromStep(slots, i);
    LeafReportsCons(env, f, IterFrom(slots, i + 1), index, v, path);
    var full := LeafReports(env, IterFrom(slots, i + 1), index, v, path);
    assert f == Lookup(slots, i).value;
    assert LeafReports(env, IterFrom(slots, i), index, v, path) == [] + full;
    var m1 := m.(filters := Next(m.filters));
    FilterLoopSkipUnfold(env, m, v, index, path, acc);
    FilterLoopFollows(env, m1, v, index, path, acc);
    var s := FilterLoop(env, m1, v, index, path, acc);
    GrowsByCursor(m, m1);
    SkipFollows(m, m1, s, acc, full);
  }

  /** A cursor move in front of a step that follows `full` follows `[] + full`. */
  lemma SkipFollows(m: Manager, m1: Manager, s: Scan, acc: seq<Filter>, full: seq<Report>)
    requires Grows(m, m1) && NewReports(m, m1) == []
    requires Follows(m1, s, acc, full)
    ensures Follows(m, s, acc, [] + full)
  {
    GrowsTrans(m, m1, s.manager);
    assert [] + NewReports(m1, s.manager) == NewReports(m1, s.manager);
    assert [] + full == full;
  }

  lemma {:induction false} FilterLoopMatchFollows(env: Env, m: Manager, v: string, index: Key, path: seq<Key>,
                                                  acc: seq<Filter>)
    requires Valid(m.filters) && !LimitReached(m) && env.execute(Current(m.filters).value, v)
    ensures Follows(m, FilterLoop(env, m, v, index, path, acc), acc,
                    LeafReports(env, IterFrom(m.filters.slots, m.filters.index), index, v, path))
    decreases Remaining(m.filters.slots, m.filters.index), 0
  {
    var slots, i := m.filters.slots, m.filters.index;
    var f := Current(m.filters).value;
    RemainingMonotone(slots, i);
    IterFromStep(slots, i);
    LeafReportsCons(env, f, IterFrom(slots, i + 1), index, v, path);
    var r := Report(index, v, path, f);
    var m2 := m.(filters := Next(m.filters), reports := m.reports + [r], impact := m.impact + f.impact);
    FilterLoopMatchUnfold(env, m, v, index, path, acc);
    FilterLoopFollows(env, m2, v, index, path, acc + [f]);
    PrependFollows(m, m2, FilterLoop(env, m2, v, index, path, acc + [f]), r, acc,
                   LeafReports(env, IterFrom(slots, i + 1), index, v, path));
  }

  /** One report appended below the limit, in front of a step that follows
      `full`, follows `[r] + full`. */
  lemma PrependFollows(m: Manager, m2: Manager, s: Scan, r: Report, acc: seq<Filter>, full: seq<Report>)
    requires !LimitReached(m)
    requires m2.filters.slots == m.filters.slots && m2.filters.nextFree == m.filters.nextFree
    requires m2 == m.(filters := m2.filters, reports := m.reports + [r], impact := m.impact + r.filter.impact)
    requires Follows(m2, s, acc + [r.filter], full)
    ensures Follows(m, s, acc, [r] + full)
  {
    PrependReport(m, m2, s.manager, r, acc, s.matches);
    GrowsByReport(m, m2, r);
    GrowsTrans(m, m2, s.manager);
  }

  /** `processFilters` follows the leaf's reference reports over the whole
      collection, in iteration order. */
  lemma ProcessFiltersFollows(env: Env, m: Manager, v: string, index: Key, path: seq<Key>)
    ensures Follows(m, ProcessFilters(env, m, v, index, path), [],
                    LeafReports(env, IterFrom(m.filters.slots, 0), index, v, path))
  {
    var m0 := m.(filters := Rewind(m.filters));
    var s := ProcessFilters(env, m, v, index, path);
    FilterLoopFollows(env, m0, v, index, path, []);
    GrowsByCursor(m, m0);
    GrowsTrans(m, m0, s.manager);
  }

  /** With no cache set, `runFilters` on an array at depth `lvl`, whose
      path is cut back to `path[..lvl]`, follows the reference scan of that
      array under that base path. */
  lemma {:induction false} RunFiltersFollows(env: Env, m: Manager, data: seq<Entry>, path: seq<Key>, lvl: nat)
    requires m.cache.None? && lvl <= |path|
    ensures Follows(m, RunFilters(env, m, data, path, lvl), [],
                    SpecFrom(env, m.exceptions, m.restrictions, IterFrom(m.filters.slots, 0), data, 0, path[..lvl]))
    decreases Node(data), 1, 0
  {
    WalkFollows(env, m, data, 0, path, lvl, []);
  }

  lemma {:induction false} WalkFollows(env: Env, m: Manager, data: seq<Entry>, i: nat, path: seq<Key>,
                                       lvl: nat, acc: seq<Filter>)
    requires m.cache.None? && lvl <= |path| && i <= |data|
    ensures Follows(m, Walk(env, m, data, i, path, lvl, acc), acc,
                    SpecFrom(env, m.exceptions, m.restrictions, IterFrom(m.filters.slots, 0), data, i, path[..lvl]))
    decreases Node(data), 0, |data| - i
  {
    GrowsRefl(m);
    if i == |data| || LimitReached(m) {
      assert NewReports(m, m) == [];
    } else {
      var e := data[i];
      var p := ChildPath(path, lvl, e.key);
      if IsException(env.regex, m.exceptions, PathText(p)) {
        WalkSkipFollows(env, m, data, i, path, lvl, acc);
      } else {
        match e.value
        case Node(children) =>
          WalkNodeFollows(env, m, data, i, path, lvl, acc, children);
        case Leaf(v) =>
          if RestrictedOut(m.restrictions, PathText(p)) {
            WalkSkipFollows(env, m, data, i, path, lvl, acc);
          } else {
            WalkLeafFollows(env, m, data, i, path, lvl, acc, v);
          }
      }
    }
  }

  /** The child's path is the base path of the array and the child's key. */
  lemma ChildPathUnderBase(path: seq<Key>, lvl: nat, key: Key)
    requires lvl <= |path|
    ensures ChildPath(path, lvl, key) == path[..lvl] + [key]
    ensures |ChildPath(path, lvl, key)| == lvl + 1
    ensures ChildPath(path, lvl, key)[..lvl] == path[..lvl]
    ensures ChildPath(path, lvl, key)[..lvl + 1] == ChildPath(path, lvl, key)
  {
  }

  /** The child is an excepted path, or a restricted leaf: skipped. */
  predicate Skipped(env: Env, m: Manager, data: seq<Entry>, i: nat, path: seq<Key>, lvl: nat)
    requires i < |data|
  {
    var p := ChildPath(path, lvl, data[i].key);
    IsException(env.regex, m.exceptions, PathText(p)) ||
    (data[i].value.Leaf? && RestrictedOut(m.restrictions, PathText(p)))
  }

  lemma WalkSkipStep(env: Env, m: Manager, data: seq<Entry>, i: nat, path: seq<Key>, lvl: nat, acc: seq<Filter>)
    requires i < |data| && !LimitReached(m) && Skipped(env, m, data, i, path, lvl)
    ensures Walk(env, m, data, i, path, lvl, acc) ==
      Walk(env, m, data, i + 1, ChildPath(path, lvl, data[i].key), lvl, acc)
  {
  }

  lemma WalkLeafStep(env: Env, m: Manager, data: seq<Entry>, i: nat, path: seq<Key>, lvl: nat, acc: seq<Filter>,
                     v: string)
    requires i < |data| && !LimitReached(m) && data[i].value == Leaf(v)
    requires !Skipped(env, m, data, i, path, lvl)
    ensures var p := ChildPath(path, lvl, data[i].key);
      var leaf := ProcessFilters(env, m, v, data[i].key, p);
      Walk(env, m, data, i, path, lvl, acc) == Walk(env, leaf.manager, data, i + 1, p, lvl, acc + leaf.matches)
  {
  }

  lemma WalkNodeStep(env: Env, m: Manager, data: seq<Entry>, i: nat, path: seq<Key>, lvl: nat, acc: seq<Filter>,
                     children: seq<Entry>)
    requires i < |data| && !LimitReached(m) && data[i].value == Node(children)
    requires !Skipped(env, m, data, i, path, lvl)
    ensures var p := ChildPath(path, lvl, data[i].key);
      var sub := RunFilters(env, m, children, p, lvl + 1);
      Walk(env, m, data, i, path, lvl, acc) == Walk(env, sub.manager, data, i + 1, p, lvl, acc + sub.matches)
  {
  }

  lemma {:induction false} WalkSkipFollows(env: Env, m: Manager, data: seq<Entry>, i: nat, path: seq<Key>,
                                           lvl: nat, acc: seq<Filter>)
    requires m.cache.None? && lvl <= |path| && i < |data| && !LimitReached(m)
    requires Skipped(env, m, data, i, path, lvl)
    ensures Follows(m, Walk(env, m, data, i, path, lvl, acc), acc,
                    SpecFrom(env, m.exceptions, m.restrictions, IterFrom(m.filters.slots, 0), data, i, path[..lvl]))
    decreases Node(data), 0, |data| - i, 0
  {
    var fs := IterFrom(m.filters.slots, 0);
    var base := path[..lvl];
    var p := ChildPath(path, lvl, data[i].key);
    ChildPathUnderBase(path, lvl, data[i].key);
    WalkSkipStep(env, m, data, i, path, lvl, acc);
    if IsException(env.regex, m.exceptions, PathText(p)) {
      SkipExcepted(env, m.exceptions, m.restrictions, fs, data, i, base);
    } else {
      SkipRestricted(env, m.exceptions, m.restrictions, fs, data, i, base);
    }
    WalkFollows(env, m, data, i + 1, p, lvl, acc);
  }

  lemma {:induction false} WalkLeafFollows(env: Env, m: Manager, data: seq<Entry>, i: nat, path: seq<Key>,
                                           lvl: nat, acc: seq<Filter>, v: string)
    requires m.cache.None? && lvl <= |path| && i < |data| && !LimitReached(m)
    requires data[i].value == Leaf(v) && !Skipped(env, m, data, i, path, lvl)
    ensures Follows(m, Walk(env, m, data, i, path, lvl, acc), acc,
                    SpecFrom(env, m.exceptions, m.restrictions, IterFrom(m.filters.slots, 0), data, i, path[..lvl]))
    decreases Node(data), 0, |data| - i, 0
  {
    var fs := IterFrom(m.filters.slots, 0);
    var base := path[..lvl];
    var key := data[i].key;
    var p := ChildPath(path, lvl, key);
    ChildPathUnderBase(path, lvl, key);
    WalkLeafStep(env, m, data, i, path, lvl, acc, v);
    TakeLeaf(env, m.exceptions, m.restrictions, fs, data, i, base);
    var leaf := ProcessFilters(env, m, v, key, p);
    ProcessFiltersFollows(env, m, v, key, p);
    WalkFollows(env, leaf.manager, data, i + 1, p, lvl, acc + leaf.matches);
    FollowsChain(m, leaf, Walk(env, m, data, i, path, lvl, acc), acc, LeafReports(env, fs, key, v, p),
                 SpecFrom(env, m.exceptions, m.restrictions, fs, data, i + 1, base));
  }

  lemma {:induction false} WalkNodeFollows(env: Env, m: Manager, data: seq<Entry>, i: nat, path: seq<Key>,
                                           lvl: nat, acc: seq<Filter>, children: seq<Entry>)
    requires m.cache.None? && lvl <= |path| && i < |data| && !LimitReached(m)
    requires data[i].value == Node(children) && !Skipped(env, m, data, i, path, lvl)
    ensures Follows(m, Walk(env, m, data, i, path, lvl, acc), acc,
                    SpecFrom(env, m.exceptions, m.restrictions, IterFrom(m.filters.slots, 0), data, i, path[..lvl]))
    decreases Node(data), 0, |data| - i, 0
  {
    var fs := IterFrom(m.filters.slots, 0);
    var base := path[..lvl];
    var p := ChildPath(path, lvl, data[i].key);
    ChildPathUnderBase(path, lvl, data[i].key);
    WalkNodeStep(env, m, data, i, path, lvl, acc, children);
    EnterNode(env, m.exceptions, m.restrictions, fs, data, i, base);
    var sub := RunFilters(env, m, children, p, lvl + 1);
    RunFiltersFollows(env, m, children, p, lvl + 1);
    WalkFollows(env, sub.manager, data, i + 1, p, lvl, acc + sub.matches);
    FollowsChain(m, sub, Walk(env, m, data, i, path, lvl, acc), acc,
                 SpecFrom(env, m.exceptions, m.restrictions, fs, children, 0, p),
                 SpecFrom(env, m.exceptions, m.restrictions, fs, data, i + 1, base));
  }
}

=== FILE: scan_proofs.dfy ===
/** What a scan does to the manager's state, and how its output relates to
    the reference scan: impact additivity, the impact-limit stop, the
    cache, and the dispatch gate of `run`. */
module ScanProofs {
  import opened Wrappers
  import opened Filters
  import opened FilterCollections
  import opened Values
  import opened PathRules
  import opened ManagerState
  import opened Scanner
  import opened ScanSpec

  /** The reports `b` holds beyond those of `a`. */
  function NewReports(a: Manager, b: Manager): seq<Report> {
    if |a.reports| <= |b.reports| then b.reports[|a.reports|..] else []
  }

  /** Configuration a scan never touches. The iterator cursor may move. */
  predicate SameConfig(a: Manager, b: Manager) {
    && a.filters.slots == b.filters.slots
    && a.filters.nextFree == b.filters.nextFree
    && a.impactLimit == b.impactLimit
    && a.exceptions == b.exceptions
    && a.restrictions == b.restrictions
    && a.threshold == b.threshold
    && a.listeners == b.listeners
  }

  /** A cache is kept or absent alike, and existing entries are never
      overwritten or dropped. */
  predicate CacheGrows(a: Option<Cache>, b: Option<Cache>) {
    && (a.None? <==> b.None?)
    && (a.Some? ==> forall k :: k in a.value ==> k in b.value && b.value[k] == a.value[k])
  }

  /** Each filter of `fs` was added while the running impact, starting at
      `start`, had not reached the limit. */
  predicate BelowLimitAll(limit: int, start: int, fs: seq<Filter>)
    decreases |fs|
  {
    fs == [] || (!Reached(limit, start) && BelowLimitAll(limit, start + fs[0].impact, fs[1..]))
  }

  /** How a scan may change the manager: configuration kept, reports only
      appended, the impact raised by exactly the new reports' filters, each
      of them appended below the impact limit, and the cache only grown. */
  predicate Grows(a: Manager, b: Manager) {
    && SameConfig(a, b)
    && |a.reports| <= |b.reports|
    && b.reports[..|a.reports|] == a.reports
    && b.impact == a.impact + ImpactSum(ReportFilters(NewReports(a, b)))
    && BelowLimitAll(a.impactLimit, a.impact, ReportFilters(NewReports(a, b)))
    && CacheGrows(a.cache, b.cache)
  }

  lemma {:induction false} BelowLimitAppend(limit: int, start: int, a: seq<Filter>, b: seq<Filter>)
    ensures BelowLimitAll(limit, start, a + b) <==>
      BelowLimitAll(limit, start, a) && BelowLimitAll(limit, start + ImpactSum(a), b)
    decreases |a|
  {
    if a == [] {
      assert a + b == b;
    } else {
      assert (a + b)[1..] == a[1..] + b;
      BelowLimitAppend(limit, start + a[0].impact, a[1..], b);
    }
  }

  lemma GrowsRefl(a: Manager)
    ensures Grows(a, a)
  {
    assert NewReports(a, a) == [];
  }

  lemma {:induction false} GrowsTrans(a: Manager, b: Manager, c: Manager)
    requires Grows(a, b) && Grows(b, c)
    ensures Grows(a, c)
    ensures NewReports(a, c) == NewReports(a, b) + NewReports(b, c)
  {
    var ab, bc := NewReports(a, b), NewReports(b, c);
    assert c.reports == b.reports + bc;
    assert b.reports == a.reports + ab;
    assert NewReports(a, c) == ab + bc;
    ReportFiltersAppend(ab, bc);
    ImpactSumAppend(ReportFilters(ab), ReportFilters(bc));
    BelowLimitAppend(a.impactLimit, a.impact, ReportFilters(ab), ReportFilters(bc));
    assert c.reports[..|a.reports|] == a.reports;
  }

  /** Appending one report below the limit, with its filter's impact. */
  lemma GrowsByReport(m: Manager, m': Manager, r: Report)
    requires !LimitReached(m)
    requires m'.filters.slots == m.filters.slots && m'.filters.nextFree == m.filters.nextFree
    requires m' == m.(filters := m'.filters, reports := m.reports + [r], impact := m.impact + r.filter.impact)
    ensures Grows(m, m')
    ensures NewReports(m, m') == [r]
  {
    assert NewReports(m, m') == [r];
    assert ReportFilters([r]) == [r.filter];
    assert ImpactSum([r.filter]) == r.filter.impact by {
      assert [r.filter][1..] == [];
    }
    assert BelowLimitAll(m.impactLimit, m.impact + r.filter.impact, []);
  }

  /** Moving only the iterator cursor. */
  lemma GrowsByCursor(m: Manager, m': Manager)
    requires m' == m.(filters := m'.filters)
    requires m'.filters.slots == m.filters.slots && m'.filters.nextFree == m.filters.nextFree
    ensures Grows(m, m') && NewReports(m, m') == []
  {
    assert NewReports(m, m') == [];
  }

  /** The filter loop: state grows, and the returned list is the gathered
      list followed by the filters of the reports it appended. */
  lemma {:induction false} FilterLoopGrows(env: Env, m: Manager, v: string, index: Key, path: seq<Key>,
                                           acc: seq<Filter>)
    ensures Grows(m, FilterLoop(env, m, v, index, path, acc).manager)
    ensures FilterLoop(env, m, v, index, path, acc).matches ==
      acc + ReportFilters(NewReports(m, FilterLoop(env, m, v, index, path, acc).manager))
    decreases Remaining(m.filters.slots, m.filters.index)
  {
    if !Valid(m.filters) || LimitReached(m) {
      GrowsRefl(m);
    } else {
      var f := Current(m.filters).value;
      RemainingMonotone(m.filters.slots, m.filters.index);
      var m1 := m.(filters := Next(m.filters));
      if env.execute(f, v) {
        FilterLoopMatchStep(env, m, v, index, path, acc, f, m1);
      } else {
        var s := FilterLoop(env, m1, v, index, path, acc);
        assert FilterLoop(env, m, v, index, path, acc) == s;
        GrowsByCursor(m, m1);
        FilterLoopGrows(env, m1, v, index, path, acc);
        GrowsTrans(m, m1, s.manager);
      }
    }
  }

  lemma {:induction false} FilterLoopMatchStep(env: Env, m: Manager, v: string, index: Key, path: seq<Key>,
                                               acc: seq<Filter>, f: Filter, m1: Manager)
    requires Valid(m.filters) && !LimitReached(m)
    requires f == Current(m.filters).value && env.execute(f, v)
    requires m1 == m.(filters := Next(m.filters))
    ensures Grows(m, FilterLoop(env, m, v, index, path, acc).manager)
    ensures FilterLoop(env, m, v, index, path, acc).matches ==
      acc + ReportFilters(NewReports(m, FilterLoop(env, m, v, index, path, acc).manager))
    decreases Remaining(m.filters.slots, m.filters.index), 0
  {
    RemainingMonotone(m.filters.slots, m.filters.index);
    var r := Report(index, v, path, f);
    var m2 := m1.(reports := m1.reports + [r], impact := m1.impact + f.impact);
    var s := FilterLoop(env, m2, v, index, path, acc + [f]);
    assert FilterLoop(env, m, v, index, path, acc) == s;
    FilterLoopGrows(env, m2, v, index, path, acc + [f]);
    PrependReport(m, m2, s.manager, r, acc, s.matches);
  }

  /** One report appended below the limit, in front of a run that grows. */
  lemma PrependReport(m: Manager, m2: Manager, m3: Manager, r: Report, acc: seq<Filter>, matches: seq<Filter>)
    requires !LimitReached(m)
    requires m2.filters.slots == m.filters.slots && m2.filters.nextFree == m.filters.nextFree
    requires m2 == m.(filters := m2.filters, reports := m.reports + [r], impact := m.impact + r.filter.impact)
    requires Grows(m2, m3)
    requires matches == (acc + [r.filter]) + ReportFilters(NewReports(m2, m3))
    ensures Grows(m, m3)
    ensures matches == acc + ReportFilters(NewReports(m, m3))
  {
    GrowsByReport(m, m2, r);
    GrowsTrans(m, m2, m3);
    ShiftMatches(acc, r, NewReports(m2, m3), NewReports(m, m3), matches);
  }

  lemma ShiftMatches(acc: seq<Filter>, r: Report, rest: seq<Report>, all: seq<Report>, matches: seq<Filter>)
    requires all == [r] + rest
    requires matches == (acc + [r.filter]) + ReportFilters(rest)
    ensures matches == acc + ReportFilters(all)
  {
    ReportFiltersAppend([r], rest);
    assert ReportFilters([r]) == [r.filter];
  }

  lemma ProcessFiltersGrows(env: Env, m: Manager, v: string, index: Key, path: seq<Key>)
    ensures Grows(m, ProcessFilters(env, m, v, index, path).manager)
    ensures ProcessFilters(env, m, v, index, path).matches ==
      ReportFilters(NewReports(m, ProcessFilters(env, m, v, index, path).manager))
  {
    var m0 := m.(filters := Rewind(m.filters));
    GrowsByCursor(m, m0);
    FilterLoopGrows(env, m0, v, index, path, []);
    GrowsTrans(m, m0, ProcessFilters(env, m, v, index, path).manager);
  }

  /** Whatever the cache holds, a scan only grows the manager's state. */
  lemma {:induction false} RunFiltersGrows(env: Env, m: Manager, data: seq<Entry>, path: seq<Key>, lvl: nat)
    ensures Grows(m, RunFilters(env, m, data, path, lvl).manager)
    decreases Node(data), 1, 0
  {
    if m.cache.Some? && data in m.cache.value {
      GrowsRefl(m);
    } else {
      WalkGrows(env, m, data, 0, path, lvl, []);
      var s := Walk(env, m, data, 0, path, lvl, []);
      if s.manager.cache.Some? {
        var m' := s.manager.(cache := Some(s.manager.cache.value[data := s.matches]));
        assert NewReports(m, m') == NewReports(m, s.manager);
      }
    }
  }

  lemma {:induction false} WalkGrows(env: Env, m: Manager, data: seq<Entry>, i: nat, path: seq<Key>,
                                     lvl: nat, acc: seq<Filter>)
    requires i <= |data|
    ensures Grows(m, Walk(env, m, data, i, path, lvl, acc).manager)
    decreases Node(data), 0, |data| - i
  {
    var s := Walk(env, m, data, i, path, lvl, acc);
    if i == |data| || LimitReached(m) {
      GrowsRefl(m);
    } else {
      var e := data[i];
      var p := ChildPath(path, lvl, e.key);
      if IsException(env.regex, m.exceptions, PathText(p)) {
        WalkGrows(env, m, data, i + 1, p, lvl, acc);
      } else {
        match e.value
        case Node(children) =>
          var sub := RunFilters(env, m, children, p, lvl + 1);
          RunFiltersGrows(env, m, children, p, lvl + 1);
          WalkGrows(env, sub.manager, data, i + 1, p, lvl, acc + sub.matches);
          GrowsTrans(m, sub.manager, s.manager);
        case Leaf(v) =>
          if RestrictedOut(m.restrictions, PathText(p)) {
            WalkGrows(env, m, data, i + 1, p, lvl, acc);
          } else {
            var leaf := ProcessFilters(env, m, v, e.key, p);
            ProcessFiltersGrows(env, m, v, e.key, p);
            WalkGrows(env, leaf.manager, data, i + 1, p, lvl, acc + leaf.matches);
            GrowsTrans(m, leaf.manager, s.manager);
          }
      }
    }
  }
}

=== FILE: scan_sound.dfy ===
/** Soundness of the stateful scan whatever the cache holds: a cache hit
    appends no report, and every report a walk appends was found at a real
    leaf whose path passed every exception check on the way down. */
module ScanSound {
  import opened Filters
  import opened FilterCollections
  import opened Values
  import opened PathRules
  import opened ManagerState
  import opened Scanner
  import opened ScanSpec
  import opened ScanProofs
  import opened ScanMatch

  /** Every report of `rs` is sound for `data` under `base`, with `m`'s
      configuration and filters. */
  ghost predicate AllSound(env: Env, m: Manager, data: seq<Entry>, base: seq<Key>, rs: seq<Report>) {
    forall r :: r in rs ==> ReportOk(env, m.exceptions, m.restrictions, IterSeq(m.filters), data, base, r)
  }

  /** `runFilters` on an array at depth `lvl`, with any cache, appends only
      reports sound for that array under the base path `path[..lvl]`; on a
      cache hit it returns the cached list and changes nothing. */
  lemma {:induction false} RunFiltersSound(env: Env, m: Manager, data: seq<Entry>, path: seq<Key>, lvl: nat)
    requires lvl <= |path|
    ensures AllSound(env, m, data, path[..lvl], NewReports(m, RunFilters(env, m, data, path, lvl).manager))
    ensures m.cache.Some? && data in m.cache.value ==>
      RunFilters(env, m, data, path, lvl) == Scan(m, m.cache.value[data])
    decreases Node(data), 1, 0
  {
    if m.cache.Some? && data in m.cache.value {
      assert NewReports(m, m) == [];
    } else {
      WalkSound(env, m, data, 0, path, lvl, []);
      var s := Walk(env, m, data, 0, path, lvl, []);
      assert RunFilters(env, m, data, path, lvl).manager.reports == s.manager.reports;
    }
  }

  /** The `while` loop of `runFilters` from child `i` on, with any cache,
      appends only reports sound for the array under `path[..lvl]`. */
  lemma {:induction false} WalkSound(env: Env, m: Manager, data: seq<Entry>, i: nat, path: seq<Key>,
                                     lvl: nat, acc: seq<Filter>)
    requires lvl <= |path| && i <= |data|
    ensures AllSound(env, m, data, path[..lvl], NewReports(m, Walk(env, m, data, i, path, lvl, acc).manager))
    decreases Node(data), 0, |data| - i
  {
    if i == |data| || LimitReached(m) {
      assert NewReports(m, m) == [];
    } else {
      var e := data[i];
      var p := ChildPath(path, lvl, e.key);
      ChildPathUnderBase(path, lvl, e.key);
      if Skipped(env, m, data, i, path, lvl) {
        WalkSkipStep(env, m, data, i, path, lvl, acc);
        WalkSound(env, m, data, i + 1, p, lvl, acc);
      } else if e.value.Node? {
        var sub := RunFilters(env, m, e.value.entries, p, lvl + 1);
        WalkNodeStep(env, m, data, i, path, lvl, acc, e.value.entries);
        RunFiltersSound(env, m, e.value.entries, p, lvl + 1);
        RunFiltersGrows(env, m, e.value.entries, p, lvl + 1);
        WalkSound(env, sub.manager, data, i + 1, p, lvl, acc + sub.matches);
        WalkGrows(env, sub.manager, data, i + 1, p, lvl, acc + sub.matches);
        NodeStepSound(env, m, sub.manager, data, i, path, lvl, e.value.entries);
        ChainSound(env, m, sub.manager, Walk(env, sub.manager, data, i + 1, p, lvl, acc + sub.matches).manager,
                   data, path[..lvl]);
      } else {
        var leaf := ProcessFilters(env, m, e.value.text, e.key, p);
        WalkLeafStep(env, m, data, i, path, lvl, acc, e.value.text);
        ProcessFiltersGrows(env, m, e.value.text, e.key, p);
        LeafStepSound(env, m, leaf.manager, data, i, path, lvl, e.value.text);
        WalkSound(env, leaf.manager, data, i + 1, p, lvl, acc + leaf.matches);
        WalkGrows(env, leaf.manager, data, i + 1, p, lvl, acc + leaf.matches);
        ChainSound(env, m, leaf.manager, Walk(env, leaf.manager, data, i + 1, p, lvl, acc + leaf.matches).manager,
                   data, path[..lvl]);
      }
    }
  }

  /** Sound reports appended in two steps are sound together: the
      configuration the second step checks against is the first's. */
  lemma ChainSound(env: Env, m: Manager, mid: Manager, last: Manager, data: seq<Entry>, base: seq<Key>)
    requires Grows(m, mid) && Grows(mid, last)
    requires AllSound(env, m, data, base, NewReports(m, mid))
    requires AllSound(env, mid, data, base, NewReports(mid, last))
    ensures AllSound(env, m, data, base, NewReports(m, last))
  {
    GrowsTrans(m, mid, last);
  }

  /** The reports a child array's scan appends, lifted to the parent. */
  lemma NodeStepSound(env: Env, m: Manager, mid: Manager, data: seq<Entry>, i: nat, path: seq<Key>,
                      lvl: nat, children: seq<Entry>)
    requires lvl <= |path| && i < |data| && data[i].value == Node(children)
    requires !IsException(env.regex, m.exceptions, PathText(path[..lvl] + [data[i].key]))
    requires AllSound(env, m, children, path[..lvl] + [data[i].key], NewReports(m, mid))
    ensures AllSound(env, m, data, path[..lvl], NewReports(m, mid))
  {
    forall r | r in NewReports(m, mid)
      ensures ReportOk(env, m.exceptions, m.restrictions, IterSeq(m.filters), data, path[..lvl], r)
    {
      LiftReport(env, m.exceptions, m.restrictions, IterSeq(m.filters), data, i, path[..lvl], children, r);
    }
  }

  /** The reports `processFilters` appends at a leaf that is neither
      excepted nor restricted are sound for the array holding the leaf. */
  lemma LeafStepSound(env: Env, m: Manager, m': Manager, data: seq<Entry>, i: nat, path: seq<Key>,
                      lvl: nat, v: string)
    requires lvl <= |path| && i < |data| && data[i].value == Leaf(v)
    requires m' == ProcessFilters(env, m, v, data[i].key, ChildPath(path, lvl, data[i].key)).manager
    requires !IsException(env.regex, m.exceptions, PathText(ChildPath(path, lvl, data[i].key)))
    requires !RestrictedOut(m.restrictions, PathText(ChildPath(path, lvl, data[i].key)))
    ensures AllSound(env, m, data, path[..lvl], NewReports(m, m'))
  {
    var p := ChildPath(path, lvl, data[i].key);
    ProcessFiltersFollows(env, m, v, data[i].key, p);
    var full := LeafReports(env, IterSeq(m.filters), data[i].key, v, p);
    assert NewReports(m, m') <= full;
    forall r | r in NewReports(m, m')
      ensures ReportOk(env, m.exceptions, m.restrictions, IterSeq(m.filters), data, path[..lvl], r)
    {
      LeafReportSound(env, m, data, i, path, lvl, v, r);
    }
  }

  /** One reference report of a leaf that is neither excepted nor
      restricted is sound for the array holding the leaf. */
  lemma LeafReportSound(env: Env, m: Manager, data: seq<Entry>, i: nat, path: seq<Key>, lvl: nat,
                        v: string, r: Report)
    requires lvl <= |path| && i < |data| && data[i].value == Leaf(v)
    requires !IsException(env.regex, m.exceptions, PathText(ChildPath(path, lvl, data[i].key)))
    requires !RestrictedOut(m.restrictions, PathText(ChildPath(path, lvl, data[i].key)))
    requires r in LeafReports(env, IterSeq(m.filters), data[i].key, v, ChildPath(path, lvl, data[i].key))
    ensures ReportOk(env, m.exceptions, m.restrictions, IterSeq(m.filters), data, path[..lvl], r)
  {
    ChildPathUnderBase(path, lvl, data[i].key);
    LeafReportsSound(env, IterSeq(m.filters), data[i].key, v, ChildPath(path, lvl, data[i].key));
    LeafReportOk(env, m.exceptions, m.restrictions, IterSeq(m.filters), data, i, path[..lvl], v, r);
  }

  /** A report at the path of leaf `i` of `data`, which sits at `base`. */
  lemma LeafReportOk(env: Env, ex: seq<string>, rs: seq<string>, fs: seq<Filter>, data: seq<Entry>,
                     i: nat, base: seq<Key>, v: string, r: Report)
    requires i < |data| && data[i].value == Leaf(v)
    requires r.path == base + [data[i].key] && r.index == data[i].key && r.value == v
    requires r.filter in fs && env.execute(r.filter, v)
    requires !IsException(env.regex, ex, PathText(r.path)) && !RestrictedOut(rs, PathText(r.path))
    ensures ReportOk(env, ex, rs, fs, data, base, r)
  {
    assert r.path[..|base|] == base;
    assert r.path[|base|..] == [data[i].key];
    forall k | |base| < k <= |r.path|
      ensures !IsException(env.regex, ex, PathText(r.path[..k]))
    {
      assert r.path[..k] == r.path;
    }
    assert Reaches(data, r.path[|base|..], r.value) by {
      assert data[i].key == r.path[|base|..][0];
    }
  }
}

=== FILE: scan_spec.dfy ===
/** An independent, stateless description of what a complete scan reports:
    depth-first over the input in its own order, pruning excepted paths
    before looking at what they hold, skipping restricted leaves, and one
    report per matching filter in collection order. */
module ScanSpec {
  import opened Filters
  import opened Values
  import opened PathRules
  import opened ManagerState

  function ReportFilters(rs: seq<Report>): (r: seq<Filter>)
    ensures |r| == |rs|
    ensures forall i :: 0 <= i < |rs| ==> r[i] == rs[i].filter
  {
    seq(|rs|, i requires 0 <= i < |rs| => rs[i].filter)
  }

  lemma ReportFiltersAppend(a: seq<Report>, b: seq<Report>)
    ensures ReportFilters(a + b) == ReportFilters(a) + ReportFilters(b)
  {
  }

  /** The reports one leaf yields: one per filter of `fs` it matches, in
      the order of `fs`. */
  function LeafReports(env: Env, fs: seq<Filter>, key: Key, v: string, path: seq<Key>): seq<Report> {
    if fs == [] then []
    else
      (if env.execute(fs[0], v) then [Report(key, v, path, fs[0])] else [])
      + LeafReports(env, fs[1..], key, v, path)
  }

  /** The reports of children i, i+1, ... of `data`, which sits at `base`. */
  function SpecFrom(env: Env, ex: seq<string>, rs: seq<string>, fs: seq<Filter>,
                    data: seq<Entry>, i: nat, base: seq<Key>): seq<Report>
    decreases Node(data), |data| - i
  {
    if i >= |data| then []
    else
      var e := data[i];
      var p := base + [e.key];
      (if IsException(env.regex, ex, PathText(p)) then []
       else match e.value
         case Node(c) => SpecFrom(env, ex, rs, fs, c, 0, p)
         case Leaf(v) =>
           if RestrictedOut(rs, PathText(p)) then [] else LeafReports(env, fs, e.key, v, p))
      + SpecFrom(env, ex, rs, fs, data, i + 1, base)
  }

  /** What a report found under `base` in `data` must satisfy: it lies
      strictly below `base`, ends at a real leaf holding its value under its
      key, no path from just below `base` down to it is an exception, its
      own path passes the restrictions, and its filter is one of `fs` and
      matches the value. */
  ghost predicate ReportOk(env: Env, ex: seq<string>, rs: seq<string>, fs: seq<Filter>,
                           data: seq<Entry>, base: seq<Key>, r: Report) {
    && |base| < |r.path| && r.path[..|base|] == base
    && r.index == r.path[|r.path| - 1]
    && r.filter in fs && env.execute(r.filter, r.value)
    && !RestrictedOut(rs, PathText(r.path))
    && (forall k :: |base| < k <= |r.path| ==> !IsException(env.regex, ex, PathText(r.path[..k])))
    && Reaches(data, r.path[|base|..], r.value)
  }

  lemma {:induction false} LeafReportsSound(env: Env, fs: seq<Filter>, key: Key, v: string, path: seq<Key>)
    ensures forall r :: r in LeafReports(env, fs, key, v, path) ==>
      r.index == key && r.value == v && r.path == path && r.filter in fs && env.execute(r.filter, v)
  {
    if fs != [] {
      LeafReportsSound(env, fs[1..], key, v, path);
    }
  }

  /** Every report of the reference scan satisfies `ReportOk`. */
  lemma {:induction false} SpecSound(env: Env, ex: seq<string>, rs: seq<string>, fs: seq<Filter>,
                                     data: seq<Entry>, i: nat, base: seq<Key>)
    ensures forall r :: r in SpecFrom(env, ex, rs, fs, data, i, base) ==>
      ReportOk(env, ex, rs, fs, data, base, r)
    decreases Node(data), |data| - i
  {
    if i < |data| {
      var e := data[i];
      var p := base + [e.key];
      SpecSound(env, ex, rs, fs, data, i + 1, base);
      if !IsException(env.regex, ex, PathText(p)) {
        match e.value
        case Node(c) =>
          SpecSound(env, ex, rs, fs, c, 0, p);
          forall r | r in SpecFrom(env, ex, rs, fs, c, 0, p)
            ensures ReportOk(env, ex, rs, fs, data, base, r)
          {
            LiftReport(env, ex, rs, fs, data, i, base, c, r);
          }
        case Leaf(v) =>
          if !RestrictedOut(rs, PathText(p)) {
            LeafReportsSound(env, fs, e.key, v, p);
            forall r | r in LeafReports(env, fs, e.key, v, p)
              ensures ReportOk(env, ex, rs, fs, data, base, r)
            {
              assert r.path[..|base|] == base;
              assert r.path[|base|..] == [e.key];
              forall k | |base| < k <= |r.path|
                ensures !IsException(env.regex, ex, PathText(r.path[..k]))
              {
                assert r.path[..k] == p;
              }
              assert Reaches(data, r.path[|base|..], r.value) by {
                assert data[i].key == r.path[|base|..][0];
              }
            }
          }
      }
    }
  }

  /** A report found in child `i`'s array is a report of `data`. */
  lemma LiftReport(env: Env, ex: seq<string>, rs: seq<string>, fs: seq<Filter>,
                   data: seq<Entry>, i: nat, base: seq<Key>, c: seq<Entry>, r: Report)
    requires i < |data| && data[i].value == Node(c)
    requires !IsException(env.regex, ex, PathText(base + [data[i].key]))
    requires ReportOk(env, ex, rs, fs, c, base + [data[i].key], r)
    ensures ReportOk(env, ex, rs, fs, data, base, r)
  {
    var p := base + [data[i].key];
    assert r.path[..|base|] == r.path[..|p|][..|base|];
    forall k | |base| < k <= |r.path|
      ensures !IsException(env.regex, ex, PathText(r.path[..k]))
    {
      if k == |p| {
        assert r.path[..k] == p;
      }
    }
    var tail := r.path[|base|..];
    assert tail[0] == data[i].key by { assert r.path[|base|] == p[|base|]; }
    assert tail[1..] == r.path[|p|..];
  }

  /** Nothing is reported at or below a path that is an exception. */
  lemma ExceptedPathYieldsNothing(env: Env, ex: seq<string>, rs: seq<string>, fs: seq<Filter>,
                                  data: seq<Entry>, base: seq<Key>, q: seq<Key>, r: Report)
    requires |base| < |q| && q[..|base|] == base
    requires IsException(env.regex, ex, PathText(q))
    requires r in SpecFrom(env, ex, rs, fs, data, 0, base)
    ensures !(q <= r.path)
  {
    SpecSound(env, ex, rs, fs, data, 0, base);
    if |q| <= |r.path| {
      assert !IsException(env.regex, ex, PathText(r.path[..|q|]));
      assert r.path[..|q|] != q;
    }
  }

  /** When every path is an exception, the reference scan reports nothing. */
  lemma {:induction false} AllExceptedSpecEmpty(env: Env, ex: seq<string>, rs: seq<string>, fs: seq<Filter>,
                                                data: seq<Entry>, i: nat, base: seq<Key>)
    requires forall p :: IsException(env.regex, ex, p)
    ensures SpecFrom(env, ex, rs, fs, data, i, base) == []
    decreases |data| - i
  {
    if i < |data| {
      AllExceptedSpecEmpty(env, ex, rs, fs, data, i + 1, base);
    }
  }

  /** With no filters, the reference scan reports nothing. */
  lemma {:induction false} NoFiltersSpecEmpty(env: Env, ex: seq<string>, rs: seq<string>,
                                              data: seq<Entry>, i: nat, base: seq<Key>)
    ensures SpecFrom(env, ex, rs, [], data, i, base) == []
    decreases Node(data), |data| - i
  {
    if i < |data| {
      var e := data[i];
      if e.value.Node? {
        NoFiltersSpecEmpty(env, ex, rs, e.value.entries, 0, base + [e.key]);
      }
      NoFiltersSpecEmpty(env, ex, rs, data, i + 1, base);
    }
  }

  /** The reference scan moves past an excepted child without a report. */
  lemma SkipExcepted(env: Env, ex: seq<string>, rs: seq<string>, fs: seq<Filter>,
                     data: seq<Entry>, i: nat, base: seq<Key>)
    requires i < |data| && IsException(env.regex, ex, PathText(base + [data[i].key]))
    ensures SpecFrom(env, ex, rs, fs, data, i, base) == SpecFrom(env, ex, rs, fs, data, i + 1, base)
  {
  }

  /** The reference scan enters a child array whose path is not excepted. */
  lemma EnterNode(env: Env, ex: seq<string>, rs: seq<string>, fs: seq<Filter>,
                  data: seq<Entry>, i: nat, base: seq<Key>)
    requires i < |data| && data[i].value.Node?
    requires !IsException(env.regex, ex, PathText(base + [data[i].key]))
    ensures SpecFrom(env, ex, rs, fs, data, i, base) ==
      SpecFrom(env, ex, rs, fs, data[i].value.entries, 0, base + [data[i].key])
      + SpecFrom(env, ex, rs, fs, data, i + 1, base)
  {
  }

  /** The reference scan reports a leaf neither excepted nor restricted. */
  lemma TakeLeaf(env: Env, ex: seq<string>, rs: seq<string>, fs: seq<Filter>,
                 data: seq<Entry>, i: nat, base: seq<Key>)
    requires i < |data| && data[i].value.Leaf?
    requires !IsException(env.regex, ex, PathText(base + [data[i].key]))
    requires !RestrictedOut(rs, PathText(base + [data[i].key]))
    ensures SpecFrom(env, ex, rs, fs, data, i, base) ==
      LeafReports(env, fs, data[i].key, data[i].value.text, base + [data[i].key])
      + SpecFrom(env, ex, rs, fs, data, i + 1, base)
  {
  }

  /** The reference scan moves past a restricted leaf without a report. */
  lemma SkipRestricted(env: Env, ex: seq<string>, rs: seq<string>, fs: seq<Filter>,
                       data: seq<Entry>, i: nat, base: seq<Key>)
    requires i < |data| && data[i].value.Leaf?
    requires RestrictedOut(rs, PathText(base + [data[i].key]))
    ensures SpecFrom(env, ex, rs, fs, data, i, base) == SpecFrom(env, ex, rs, fs, data, i + 1, base)
  {
  }
}

=== FILE: scanner.dfy ===
/** `run`, `runFilters` and `processFilters`: the recursive scan of the
    request data and the threshold-gated dispatch after it. */
module Scanner {
  import opened Wrappers
  import opened Filters
  import opened FilterCollections
  import opened FilterEvents
  import opened Values
  import opened PathRules
  import opened ManagerState

  /** The state after a scan step and the filter matches it returned. */
  datatype Scan = Scan(manager: Manager, matches: seq<Filter>)

  /** The path a child is checked under: the loop's path cut back to the
      current depth, then the child's key appended. */
  function ChildPath(path: seq<Key>, lvl: nat, key: Key): (r: seq<Key>)
    ensures |r| == (if |path| > lvl then lvl else |path|) + 1
    ensures r[..|r| - 1] == path[..|r| - 1]
    ensures r[|r| - 1] == key
  {
    (if |path| > lvl then path[..lvl] else path) + [key]
  }

  /** `runFilters`: on a cache hit, the cached list and nothing else;
      otherwise the walk over the array's children, whose result is then
      stored in the cache when one is set. */
  function RunFilters(env: Env, m: Manager, data: seq<Entry>, path: seq<Key>, lvl: nat): Scan
    decreases Node(data), 1, 0
  {
    if m.cache.Some? && data in m.cache.value then Scan(m, m.cache.value[data])
    else
      var s := Walk(env, m, data, 0, path, lvl, []);
      if s.manager.cache.Some? then
        Scan(s.manager.(cache := Some(s.manager.cache.value[data := s.matches])), s.matches)
      else s
  }

  /** The `while` loop of `runFilters`, from child `i` on, with the loop's
      current path and the matches gathered so far. */
  function Walk(env: Env, m: Manager, data: seq<Entry>, i: nat, path: seq<Key>, lvl: nat,
                acc: seq<Filter>): Scan
    requires i <= |data|
    decreases Node(data), 0, |data| - i
  {
    if i == |data| || LimitReached(m) then Scan(m, acc)
    else
      var e := data[i];
      var p := ChildPath(path, lvl, e.key);
      if IsException(env.regex, m.exceptions, PathText(p)) then
        Walk(env, m, data, i + 1, p, lvl, acc)
      else
        match e.value
        case Node(children) =>
          var sub := RunFilters(env, m, children, p, lvl + 1);
          Walk(env, sub.manager, data, i + 1, p, lvl, acc + sub.matches)
        case Leaf(v) =>
          if RestrictedOut(m.restrictions, PathText(p)) then
            Walk(env, m, data, i + 1, p, lvl, acc)
          else
            var leaf := ProcessFilters(env, m, v, e.key, p);
            Walk(env, leaf.manager, data, i + 1, p, lvl, acc + leaf.matches)
  }

  /** `processFilters`: rewind the filter collection and run the loop. */
  function ProcessFilters(env: Env, m: Manager, v: string, index: Key, path: seq<Key>): Scan {
    FilterLoop(env, m.(filters := Rewind(m.filters)), v, index, path, [])
  }

  /** The `while` loop of `processFilters`, driven by the collection's own
      iterator; every match appends the filter, one report, and the
      filter's impact. */
  function FilterLoop(env: Env, m: Manager, v: string, index: Key, path: seq<Key>,
                      acc: seq<Filter>): Scan
    decreases Remaining(m.filters.slots, m.filters.index)
  {
    if !Valid(m.filters) || LimitReached(m) then Scan(m, acc)
    else
      var f := Current(m.filters).value;
      RemainingMonotone(m.filters.slots, m.filters.index);
      var m1 := m.(filters := Next(m.filters));
      if env.execute(f, v) then
        FilterLoop(env, m1.(reports := m1.reports + [Report(index, v, path, f)],
                            impact := m1.impact + f.impact),
                   v, index, path, acc + [f])
      else
        FilterLoop(env, m1, v, index, path, acc)
  }

  /** The conversion pass of `run`: top-level scalars go through the
      converter; arrays, and everything inside them, are left as they are. */
  function ConvertTopLevel(convert: string -> string, data: seq<Entry>): (r: seq<Entry>)
    ensures |r| == |data|
    ensures forall i :: 0 <= i < |data| ==> r[i].key == data[i].key
    ensures forall i :: 0 <= i < |data| && data[i].value.Node? ==> r[i] == data[i]
    ensures forall i :: 0 <= i < |data| && data[i].value.Leaf? ==>
      r[i].value == Leaf(convert(data[i].value.text))
  {
    seq(|data|, i requires 0 <= i < |data| =>
      match data[i].value
      case Leaf(t) => Entry(data[i].key, Leaf(convert(t)))
      case Node(_) => data[i])
  }

  /** What one `run` call leaves behind: the manager's new state, the
      matches `runFilters` returned, and the dispatch, if the gate opened. */
  datatype RunOutcome = RunOutcome(manager: Manager, matches: seq<Filter>, dispatched: Option<Dispatched>)

  /** `run`: convert, scan from the empty path at depth 0, and dispatch a
      `FilterEvent` of the matches when the accumulated impact reaches the
      threshold. */
  function Run(env: Env, m: Manager, data: seq<Entry>): (r: RunOutcome)
    ensures r.dispatched.Some? ==> r.dispatched.value.event.filters == r.matches
    ensures r.dispatched.Some? ==> r.dispatched.value.event.totalImpact == ImpactSum(r.matches)
  {
    var s := RunFilters(env, m, ConvertTopLevel(env.convert, data), [], 0);
    if s.manager.impact >= s.manager.threshold then
      RunOutcome(s.manager, s.matches, Some(Dispatch(s.manager, NewEvent(s.matches))))
    else
      RunOutcome(s.manager, s.matches, None)
  }
}

=== FILE: scenarios.dfy ===
/** Concrete runs on small inputs, with stand-in collaborators: a filter
    matcher that knows the one sample rule, an exception matcher that knows
    the one wildcard exception used, and the identity conversion. */
module Scenarios {
  import opened Wrappers
  import opened Filters
  import opened FilterCollections
  import opened FilterEvents
  import opened Values
  import opened PathRules
  import opened ManagerState
  import opened Scanner
  import opened ScanSpec
  import opened ScanProofs
  import opened RunProofs
  import opened FilterCollectionProofs

  /** The sample filter: rule `testmatch[0-9]+`, impact 2. */
  function Sample(): Filter {
    Filter(2, "testmatch[0-9]+", "hard-coded match string", ["test", "sample"], 2)
  }

  predicate AllDigitChars(s: string) {
    forall i :: 0 <= i < |s| ==> '0' <= s[i] <= '9'
  }

  /** Stand-in for `Filter::execute`: an empty rule matches everything, the
      sample rule matches `testmatch` followed by digits. */
  function Execute(f: Filter, v: string): bool {
    f.rule == "" ||
    (f.rule == "testmatch[0-9]+" && |v| > 9 && v[..9] == "testmatch" && AllDigitChars(v[9..]))
  }

  /** Stand-in for the anchored `preg_match`: only `POST.foo[0-9]+` is read
      as a wildcard; any other pattern matches only its own text. */
  function Match(pattern: string, subject: string): RegexOutcome {
    if pattern == "POST.foo[0-9]+" then
      (if |subject| > 8 && subject[..8] == "POST.foo" && AllDigitChars(subject[8..]) then Matched else NoMatch)
    else if pattern == subject then Matched else NoMatch
  }

  function TestEnv(): Env {
    Env((f, v) => Execute(f, v), (p, s) => Match(p, s), s => s)
  }

  function SampleManager(): Manager {
    NewManager(SetFilterData(Empty(), [Sample()]))
  }

  function Post(entries: seq<Entry>): seq<Entry> {
    [Entry(Name("POST"), Node(entries))]
  }

  /** A top-level array holds no leaf, so conversion leaves it alone. */
  lemma PostUnconverted(env: Env, entries: seq<Entry>)
    ensures ConvertTopLevel(env.convert, Post(entries)) == Post(entries)
  {
  }

  /** With no exceptions and no restrictions, the reference scan of
      `POST.key = v` is the leaf's reports. */
  lemma SingleLeafExpected(env: Env, m: Manager, key: Key, v: string)
    requires m.exceptions == [] && m.restrictions == []
    ensures Expected(env, m, Post([Entry(key, Leaf(v))])) ==
      LeafReports(env, IterSeq(m.filters), key, v, [Name("POST"), key])
  {
    var fs := IterSeq(m.filters);
    var inner := [Entry(key, Leaf(v))];
    var root := [Name("POST")];
    assert [] + [Name("POST")] == root;
    assert root + [key] == [Name("POST"), key];
    EnterNode(env, [], [], fs, Post(inner), 0, []);
    TakeLeaf(env, [], [], fs, inner, 0, root);
    var leaf := LeafReports(env, fs, key, v, [Name("POST"), key]);
    assert leaf + [] == leaf;
  }

  /** One report of the sample filter, and its impact. */
  lemma OneSampleReport(r: Report)
    requires r.filter == Sample()
    ensures ReportFilters([r]) == [Sample()] && ImpactSum([Sample()]) == 2
  {
    assert [Sample()][1..] == [];
  }

  /** One matching leaf: impact 2 and one report. */
  lemma RunSuccess()
    ensures var o := Run(TestEnv(), SampleManager(), Post([Entry(Name("foo"), Leaf("testmatch1"))]));
      o.manager.impact == 2 && |o.manager.reports| == 1 && o.matches == [Sample()]
  {
    var env := TestEnv();
    var m := SampleManager();
    var data := Post([Entry(Name("foo"), Leaf("testmatch1"))]);
    LoadedStoreIterates([Sample()]);
    SingleLeafExpected(env, m, Name("foo"), "testmatch1");
    SampleMatchesOnce(Name("foo"), [Name("POST"), Name("foo")]);
    PostUnconverted(env, [Entry(Name("foo"), Leaf("testmatch1"))]);
    RunIsSpec(env, m, data);
    RunGateNoCache(env, m, data);
    OneSampleReport(Report(Name("foo"), "testmatch1", [Name("POST"), Name("foo")], Sample()));
  }

  lemma WildcardPaths()
    ensures PathText([Name("POST")]) == "POST"
    ensures PathText([Name("POST"), Name("foo1234")]) == "POST.foo1234"
    ensures !IsException(TestEnv().regex, ["POST.foo[0-9]+"], "POST")
    ensures IsException(TestEnv().regex, ["POST.foo[0-9]+"], "POST.foo1234")
  {
    PathTextChild([], Name("POST"));
    PathTextChild([Name("POST")], Name("foo1234"));
    assert [Name("POST")] + [Name("foo1234")] == [Name("POST"), Name("foo1234")];
    assert "POST.foo1234"[8..] == "1234";
    assert ExceptionHit(TestEnv().regex, "POST.foo[0-9]+", "POST.foo1234");
  }

  /** A leaf whose path the wildcard exception `POST.foo[0-9]+` matches is
      not scanned: no impact. */
  lemma ExceptionWildcardIsIgnored()
    ensures var m := SetException(SampleManager(), One("POST.foo[0-9]+"));
      var o := Run(TestEnv(), m, Post([Entry(Name("foo1234"), Leaf("testmatch1"))]));
      o.manager.impact == 0 && o.manager.reports == []
  {
    var m := SetException(SampleManager(), One("POST.foo[0-9]+"));
    var env := TestEnv();
    var inner := [Entry(Name("foo1234"), Leaf("testmatch1"))];
    var data := Post(inner);
    var fs := [Sample()];
    LoadedStoreIterates(fs);
    assert ConvertTopLevel(env.convert, data) == data;
    var ex := m.exceptions;
    assert ex == ["POST.foo[0-9]+"];
    WildcardPaths();
    assert [] + [Name("POST")] == [Name("POST")];
    assert [Name("POST")] + [Name("foo1234")] == [Name("POST"), Name("foo1234")];
    EnterNode(env, ex, [], fs, data, 0, []);
    SkipExcepted(env, ex, [], fs, inner, 0, [Name("POST")]);
    assert Expected(env, m, data) == [];
    RunIsSpec(env, m, data);
    RunGateNoCache(env, m, data);
  }

  /** The sample filter reports `testmatch1` once. */
  lemma SampleMatchesOnce(key: Key, path: seq<Key>)
    ensures LeafReports(TestEnv(), [Sample()], key, "testmatch1", path) == [Report(key, "testmatch1", path, Sample())]
  {
    assert "testmatch1"[9..] == "1";
    assert Execute(Sample(), "testmatch1");
    assert [Sample()][1..] == [];
  }

  /** With no exceptions and no restrictions, the reference scan of
      `POST.k1 = v1, POST.k2 = v2` is the two leaves' reports in order. */
  lemma TwoLeavesExpected(env: Env, m: Manager, k1: Key, v1: string, k2: Key, v2: string)
    requires m.exceptions == [] && m.restrictions == []
    ensures Expected(env, m, Post([Entry(k1, Leaf(v1)), Entry(k2, Leaf(v2))])) ==
      LeafReports(env, IterSeq(m.filters), k1, v1, [Name("POST"), k1])
      + LeafReports(env, IterSeq(m.filters), k2, v2, [Name("POST"), k2])
  {
    var fs := IterSeq(m.filters);
    var inner := [Entry(k1, Leaf(v1)), Entry(k2, Leaf(v2))];
    var root := [Name("POST")];
    var l1 := LeafReports(env, fs, k1, v1, [Name("POST"), k1]);
    var l2 := LeafReports(env, fs, k2, v2, [Name("POST"), k2]);
    assert SpecFrom(env, [], [], fs, inner, 1, root) == l2 by {
      assert root + [k2] == [Name("POST"), k2];
      TakeLeaf(env, [], [], fs, inner, 1, root);
      assert l2 + [] == l2;
    }
    assert SpecFrom(env, [], [], fs, inner, 0, root) == l1 + l2 by {
      assert root + [k1] == [Name("POST"), k1];
      TakeLeaf(env, [], [], fs, inner, 0, root);
    }
    assert [] + [Name("POST")] == root;
    EnterNode(env, [], [], fs, Post(inner), 0, []);
    assert (l1 + l2) + [] == l1 + l2;
  }

  /** With the impact limit at 1, the first match reaches it and the second
      matching leaf is never checked: impact 2 and one report. */
  lemma RunWithImpactLimit()
    ensures var o := Run(TestEnv(), SetImpactLimit(SampleManager(), 1),
                         Post([Entry(Name("foo"), Leaf("testmatch1")), Entry(Name("bar"), Leaf("testmatch1"))]));
      o.manager.impact == 2 && |o.manager.reports| == 1
  {
    var env := TestEnv();
    var m := SetImpactLimit(SampleManager(), 1);
    var inner := [Entry(Name("foo"), Leaf("testmatch1")), Entry(Name("bar"), Leaf("testmatch1"))];
    LoadedStoreIterates([Sample()]);
    assert IterSeq(m.filters) == [Sample()];
    PostUnconverted(env, inner);
    TwoLeavesExpected(env, m, Name("foo"), "testmatch1", Name("bar"), "testmatch1");
    SampleMatchesOnce(Name("foo"), [Name("POST"), Name("foo")]);
    SampleMatchesOnce(Name("bar"), [Name("POST"), Name("bar")]);
    var r1 := Report(Name("foo"), "testmatch1", [Name("POST"), Name("foo")], Sample());
    var r2 := Report(Name("bar"), "testmatch1", [Name("POST"), Name("bar")], Sample());
    assert Expected(env, m, Post(inner)) == [r1] + [r2];
    LimitedRunKeepsOne(env, m, Post(inner));
  }

  /** Filters that all carry the sample's impact sum to twice their count. */
  lemma {:induction false} SampleSum(fs: seq<Filter>)
    requires forall i :: 0 <= i < |fs| ==> fs[i] == Sample()
    ensures ImpactSum(fs) == 2 * |fs|
  {
    if fs != [] {
      SampleSum(fs[1..]);
    }
  }

  lemma LimitedRunKeepsOne(env: Env, m: Manager, data: seq<Entry>)
    requires m.cache.None? && m.impact == 0 && m.impactLimit == 1
    requires |Expected(env, m, data)| == 2
    requires ConvertTopLevel(env.convert, data) == data
    requires forall r :: r in Expected(env, m, data) ==> r.filter == Sample()
    ensures var o := Run(env, m, data);
      o.manager.impact == 2 && |o.manager.reports| == |m.reports| + 1
  {
    ScanFollowsSpec(env, m, data);
    ScanOvershoot(env, m, data, [], 0);
    var s := RunFilters(env, m, data, [], 0);
    var news := NewReports(m, s.manager);
    var fs := ReportFilters(news);
    assert forall i :: 0 <= i < |fs| ==> fs[i] == Sample() by {
      forall i | 0 <= i < |fs| ensures fs[i] == Sample() {
        assert news[i] == Expected(env, m, data)[i];
        assert news[i] in Expected(env, m, data);
      }
    }
    SampleSum(fs);
    SampleSum(fs[..|fs| - 1]);
    assert s.manager.impact == 2 * |fs|;
    assert |fs| == 1;
  }

  lemma ExceptionPaths()
    ensures PathText([Name("POST")]) == "POST"
    ensures PathText([Name("POST"), Name("foo")]) == "POST.foo"
    ensures PathText([Name("POST"), Name("bar")]) == "POST.bar"
    ensures PathText([Name("POST"), Name("bar"), Name("baz")]) == "POST.bar.baz"
  {
    PathTextChild([], Name("POST"));
    PathTextChild([Name("POST")], Name("foo"));
    PathTextChild([Name("POST")], Name("bar"));
    PathTextChild([Name("POST"), Name("bar")], Name("baz"));
    assert [Name("POST")] + [Name("foo")] == [Name("POST"), Name("foo")];
    assert [Name("POST")] + [Name("bar")] == [Name("POST"), Name("bar")];
    assert [Name("POST"), Name("bar")] + [Name("baz")] == [Name("POST"), Name("bar"), Name("baz")];
  }

  lemma ExceptionHits()
    ensures !IsException(TestEnv().regex, ["POST.foo", "POST.bar.baz"], "POST")
    ensures IsException(TestEnv().regex, ["POST.foo", "POST.bar.baz"], "POST.foo")
    ensures !IsException(TestEnv().regex, ["POST.foo", "POST.bar.baz"], "POST.bar")
    ensures IsException(TestEnv().regex, ["POST.foo", "POST.bar.baz"], "POST.bar.baz")
  {
    assert ExceptionHit(TestEnv().regex, "POST.foo", "POST.foo");
    assert ExceptionHit(TestEnv().regex, "POST.bar.baz", "POST.bar.baz");
  }

  /** The reference scan of the exception scenario's input is empty. */
  lemma ExceptionScenarioExpected(m: Manager, data: seq<Entry>)
    requires m.exceptions == ["POST.foo", "POST.bar.baz"] && m.restrictions == []
    requires IterSeq(m.filters) == [Sample()]
    requires data == Post([Entry(Name("foo"), Leaf("testmatch1")),
                           Entry(Name("bar"), Node([Entry(Name("baz"), Leaf("testmatch2"))]))])
    ensures Expected(TestEnv(), m, data) == []
  {
    var env := TestEnv();
    var ex := m.exceptions;
    var fs := [Sample()];
    var bar := [Entry(Name("baz"), Leaf("testmatch2"))];
    var inner := [Entry(Name("foo"), Leaf("testmatch1")), Entry(Name("bar"), Node(bar))];
    var root := [Name("POST")];
    assert !IsException(env.regex, ex, PathText([] + [Name("POST")])) by {
      assert [] + [Name("POST")] == root;
      ExceptionPaths();
      ExceptionHits();
    }
    EnterNode(env, ex, [], fs, data, 0, []);
    assert [] + [Name("POST")] == root;
    ExceptionInnerExpected(ex, inner, bar);
  }

  lemma ExceptionInnerExpected(ex: seq<string>, inner: seq<Entry>, bar: seq<Entry>)
    requires ex == ["POST.foo", "POST.bar.baz"]
    requires bar == [Entry(Name("baz"), Leaf("testmatch2"))]
    requires inner == [Entry(Name("foo"), Leaf("testmatch1")), Entry(Name("bar"), Node(bar))]
    ensures SpecFrom(TestEnv(), ex, [], [Sample()], inner, 0, [Name("POST")]) == []
  {
    var env := TestEnv();
    var fs := [Sample()];
    var root := [Name("POST")];
    var pbar := [Name("POST"), Name("bar")];
    assert SpecFrom(env, ex, [], fs, bar, 0, pbar) == [] by {
      assert IsException(env.regex, ex, PathText(pbar + [Name("baz")])) by {
        assert pbar + [Name("baz")] == [Name("POST"), Name("bar"), Name("baz")];
        ExceptionPaths();
        ExceptionHits();
      }
      SkipExcepted(env, ex, [], fs, bar, 0, pbar);
    }
    assert SpecFrom(env, ex, [], fs, inner, 1, root) == [] by {
      assert !IsException(env.regex, ex, PathText(root + [Name("bar")])) by {
        assert root + [Name("bar")] == pbar;
        ExceptionPaths();
        ExceptionHits();
      }
      EnterNode(env, ex, [], fs, inner, 1, root);
      assert root + [Name("bar")] == pbar;
    }
    assert IsException(env.regex, ex, PathText(root + [Name("foo")])) by {
      assert root + [Name("foo")] == [Name("POST"), Name("foo")];
      ExceptionPaths();
      ExceptionHits();
    }
    SkipExcepted(env, ex, [], fs, inner, 0, root);
  }

  /** Leaves under the exceptions `POST.foo` and `POST.bar.baz` are not
      scanned: no impact. */
  lemma ExceptionIsIgnored()
    ensures var m := SetException(SetException(SampleManager(), One("POST.foo")), One("POST.bar.baz"));
      var o := Run(TestEnv(), m, Post([Entry(Name("foo"), Leaf("testmatch1")),
                                       Entry(Name("bar"), Node([Entry(Name("baz"), Leaf("testmatch2"))]))]));
      o.manager.impact == 0 && o.manager.reports == []
  {
    var env := TestEnv();
    var m := SetException(SetException(SampleManager(), One("POST.foo")), One("POST.bar.baz"));
    var data := Post([Entry(Name("foo"), Leaf("testmatch1")),
                      Entry(Name("bar"), Node([Entry(Name("baz"), Leaf("testmatch2"))]))]);
    LoadedStoreIterates([Sample()]);
    assert ConvertTopLevel(env.convert, data) == data;
    ExceptionScenarioExpected(m, data);
    RunIsSpec(env, m, data);
    RunGateNoCache(env, m, data);
  }

  /** A filter with an empty rule, which matches every value. */
  function CatchAll(impact: int): Filter {
    Filter(0, "", "", [], impact)
  }

  /** One catch-all filter of impact `impact` and the threshold `t`, run on
      `{test: "test"}`: one match, and a dispatch exactly when the impact
      reaches the threshold. */
  lemma ThresholdScenario(impact: int, t: int)
    ensures var m := SetThreshold(NewManager(AddFilter(Empty(), CatchAll(impact))), Number(t)).value;
      var o := Run(TestEnv(), m, [Entry(Name("test"), Leaf("test"))]);
      && o.matches == [CatchAll(impact)]
      && o.manager.impact == impact
      && (o.dispatched.Some? <==> impact >= t)
      && (o.dispatched.Some? ==> o.dispatched.value == Dispatched(FilterEvent([CatchAll(impact)], impact), []))
  {
    var env := TestEnv();
    var f := CatchAll(impact);
    var m := SetThreshold(NewManager(AddFilter(Empty(), f)), Number(t)).value;
    var data := [Entry(Name("test"), Leaf("test"))];
    assert AddFilter(Empty(), f) == SetFilterData(Empty(), [f]);
    LoadedStoreIterates([f]);
    assert ConvertTopLevel(env.convert, data) == data;
    assert [] + [Name("test")] == [Name("test")];
    PathTextChild([], Name("test"));
    assert !IsException(env.regex, [], PathText([Name("test")]));
    TakeLeaf(env, [], [], [f], data, 0, []);
    assert [f][1..] == [];
    assert Expected(env, m, data) == [Report(Name("test"), "test", [Name("test")], f)];
    RunIsSpec(env, m, data);
    RunGateNoCache(env, m, data);
    RunGate(env, m, data);
    assert [f][1..] == [];
    assert ImpactSum([f]) == impact;
  }

  /** Impact 100 against threshold 7: the event of the one match is
      dispatched. */
  lemma ThresholdLowerThanImpact()
    ensures var m := SetThreshold(NewManager(AddFilter(Empty(), CatchAll(100))), Number(7)).value;
      Run(TestEnv(), m, [Entry(Name("test"), Leaf("test"))]).dispatched ==
        Some(Dispatched(FilterEvent([CatchAll(100)], 100), []))
  {
    ThresholdScenario(100, 7);
  }

  /** Impact 5 against threshold 100: nothing is dispatched. */
  lemma ThresholdHigherThanImpact()
    ensures var m := SetThreshold(NewManager(AddFilter(Empty(), CatchAll(5))), Number(100)).value;
      Run(TestEnv(), m, [Entry(Name("test"), Leaf("test"))]).dispatched == None
  {
    ThresholdScenario(5, 100);
  }

  /** A run with an empty collection and a cache set stores the empty list
      under the scanned array. */
  lemma CacheStoresEmptyResult()
    ensures var m := SetCache(NewManager(Empty()), map[]);
      var o := Run(TestEnv(), m, [Entry(Name("test"), Leaf("test"))]);
      && o.manager.cache.Some?
      && [Entry(Name("test"), Leaf("test"))] in o.manager.cache.value
      && o.manager.cache.value[[Entry(Name("test"), Leaf("test"))]] == []
  {
    var env := TestEnv();
    var m := SetCache(NewManager(Empty()), map[]);
    var data := [Entry(Name("test"), Leaf("test"))];
    assert ConvertTopLevel(env.convert, data) == data;
    CacheRecordsResult(env, m, data, [], 0);
    var m0 := m.(filters := Rewind(m.filters));
    assert !Valid(m0.filters);
    assert ProcessFilters(env, m, "test", Name("test"), [Name("test")]).matches == [];
    assert RunFilters(env, m, data, [], 0).matches == [];
  }

  /** The dispatched event of two filters of impact 5 and 15 totals 20 and
      reaches every listener of the provider, in order. */
  lemma DispatchEvent()
    ensures var fs := [Filter(1, "bar", "foo", ["bif", "fif"], 5), Filter(2, "bar2", "foo2", ["bif2", "fif2"], 15)];
      var m := SetListenerProvider(NewManager(Empty()), ["a", "b", "c"]);
      Dispatch(m, NewEvent(fs)) == Dispatched(FilterEvent(fs, 20), ["a", "b", "c"])
  {
    var fs := [Filter(1, "bar", "foo", ["bif", "fif"], 5), Filter(2, "bar2", "foo2", ["bif2", "fif2"], 15)];
    assert fs[1..][1..] == [];
  }

  /** Two runs over the same matching input: impact 4 and two reports. */
  lemma TwoRunsAccumulate()
    ensures var d := Post([Entry(Name("foo"), Leaf("testmatch1"))]);
      var o1 := Run(TestEnv(), SampleManager(), d);
      var o2 := Run(TestEnv(), o1.manager, d);
      o2.manager.impact == 4 && |o2.manager.reports| == 2
  {
    var env, m, d := TestEnv(), SampleManager(), Post([Entry(Name("foo"), Leaf("testmatch1"))]);
    RunSuccess();
    var o1 := Run(env, m, d);
    var o2 := Run(env, o1.manager, d);
    RunsAccumulate(env, m, d, d);
    SecondRunRepeats(env, m, o1.manager, d);
    assert o2.matches == o1.matches;
    assert [Sample()][1..] == [];
    assert ImpactSum(o1.matches) == 2;
  }

  /** A second run without a cache or limit, with the same configuration
      and filters, returns the same matches as the first. */
  lemma SecondRunRepeats(env: Env, m: Manager, m1: Manager, d: seq<Entry>)
    requires m.cache.None? && m.impactLimit < 1
    requires m1 == Run(env, m, d).manager
    ensures Run(env, m1, d).matches == Run(env, m, d).matches
  {
    var c := ConvertTopLevel(env.convert, d);
    ScanFollowsSpec(env, m, c);
    RunIsSpec(env, m, d);
    RunIsSpec(env, m1, d);
    assert Expected(env, m1, c) == Expected(env, m, c);
  }

  /** With the default threshold 0, a run that matches nothing still
      dispatches an event: no filters, total impact 0. */
  lemma CleanRunDispatches(env: Env, data: seq<Entry>)
    ensures Run(env, NewManager(Empty()), data).dispatched == Some(Dispatched(FilterEvent([], 0), []))
  {
    var m := NewManager(Empty());
    var d := ConvertTopLevel(env.convert, data);
    assert IterSeq(m.filters) == [];
    NoFiltersSpecEmpty(env, m.exceptions, m.restrictions, d, 0, []);
    ScanFollowsSpec(env, m, d);
    RunGate(env, m, data);
  }
}

=== FILE: values.dfy ===
/** The nested request data the scanner walks, and the dotted paths it
    builds while walking. */
module Values {
  import opened PhpText

  /** A PHP array key: a string or an integer. */
  datatype Key = Name(name: string) | Index(index: int)

  /** A scanned value: a scalar leaf (taken as its string form) or an array
      of key/value pairs in the array's own order. */
  datatype Value = Leaf(text: string) | Node(entries: seq<Entry>)

  datatype Entry = Entry(key: Key, value: Value)

  /** How `implode` renders a key: strings as they are, integers in decimal. */
  function KeyText(k: Key): string {
    match k
    case Name(s) => s
    case Index(n) => IntText(n)
  }

  function SegmentTexts(path: seq<Key>): (r: seq<string>)
    ensures |r| == |path|
    ensures forall i :: 0 <= i < |path| ==> r[i] == KeyText(path[i])
  {
    seq(|path|, i requires 0 <= i < |path| => KeyText(path[i]))
  }

  /** `implode('.', $path)`: the dotted path the rules are matched against. */
  function PathText(path: seq<Key>): string {
    Implode(".", SegmentTexts(path))
  }

  /** The dotted path of a child is the parent's dotted path, a dot, and the
      child's key; a top-level key is its own path. */
  lemma PathTextChild(path: seq<Key>, k: Key)
    ensures path == [] ==> PathText(path + [k]) == KeyText(k)
    ensures path != [] ==> PathText(path + [k]) == PathText(path) + "." + KeyText(k)
  {
    assert SegmentTexts(path + [k]) == SegmentTexts(path) + [KeyText(k)];
    if path != [] {
      ImplodeSnoc(".", SegmentTexts(path), KeyText(k));
    }
  }

  /** `keys` leads from `data` to a leaf holding `v`. */
  ghost predicate Reaches(data: seq<Entry>, keys: seq<Key>, v: string)
    decreases |keys|
  {
    && |keys| > 0
    && exists i :: 0 <= i < |data| && data[i].key == keys[0] &&
         if |keys| == 1 then data[i].value == Leaf(v)
         else data[i].value.Node? && Reaches(data[i].value.entries, keys[1..], v)
  }
}

=== FILE: wrappers.dfy ===
/** Failure-compatible result types shared by the model. */
module Wrappers {

  /** A value that may be absent; stands for PHP's `null` return. */
  datatype Option<+T> = None | Some(value: T)

  /** An operation that either succeeds or raises a configuration error. */
  datatype Result<+T, +E> = Ok(value: T) | Err(error: E)
}
